=== FILE: README.md ===
# Duplicate-Finder scan engine, in Dafny

This project models the duplicate-detection engine of Duplicate-Finder: the
`Model` class in `Model.py`. The engine takes the following parameters:

- a root directory;
- a block size for reading;
- a minimum file size;
- a digest algorithm.

With them, the engine:

1. **Validates the parameters.** The root must exist, be absolute and be a
   directory. The block size must convert with `int()` to a positive
   number, and the minimum size to a non-negative one. The first check that
   fails writes one "General problem" entry to the error ledger.
2. **Walks the tree.** Every file whose size lookup succeeds and is at least
   the minimum is added to the running total and then stored in the bucket
   of its size:
   - the first file of a size is kept as a bare path and is not read;
   - the second file turns the bucket into a map from digest to file list,
     digesting the waiting file and then itself;
   - every later file is digested and appended to the list of its digest.
3. **Handles failures.**
   - A file below the minimum is put on the ignored list.
   - A failed size lookup is recorded under the file's path, and so is a
     failed digest of the file being stored. When the waiting file of a
     size cannot be read, its error is recorded under the path of the file
     that arrived second, and that second file is neither digested nor
     listed.
   - A block size too large for a read raises an overflow. This clears the
     whole error ledger down to one "General error" and stops the scan.
   - The completion flag is set only when the walk reaches its end.
4. **Reports.** The groups reported are the digest lists that hold more than
   one file.

## Structure of the model

- **Engine environment (`files.dfy`).** The engine runs against a
  `FileSystem` value that supplies three things:
  - the facts about the root;
  - the walk of the root, as one sequence of files, each with its size or
    its failed lookup;
  - the content of each file.
- **Engine class (`engine.dfy`).** The class `Engine.Model` has the
  engine's fields and methods. Each method changes the fields in place and
  is proved against a specification function:
  - `InitialParamsCheck` against `Validation.CheckParams`;
  - `GetHash` against `Digesting.FileHash`;
  - `StoreFile`, `ConvertBucket` and `AddToBucket` against `Buckets.Store`;
  - `ScanEntry` against `Buckets.Step`;
  - `StartDuplicatesScan` against `Buckets.StartScan`: it ensures
    `Abstract() == StartScan(old(Abstract()), ...)`, and its loop keeps
    `Run(walk[..i]) == Running(Ledger())`;
  - `GetScanResults` against `Report.IsReported`.

  A ghost field `hashLog` records every path handed to `GetHash`, so that
  "digested once" can be stated.
- **Digesting (`digesting.dfy`).** `GetHash`'s read loop is verified to feed
  the hasher exactly the file's content. The digest algorithm is a
  function parameter.
- **Parameter validation (`conversion.dfy`, `validation.dfy`).** The
  validator uses a model of Python's `int()` on strings:
  - surrounding white space is skipped: the ASCII controls 9-13, the
    space, and the non-ASCII Unicode white space; the separators 28-31 are
    not skipped, unlike in `str.strip`;
  - an optional sign is accepted;
  - ASCII digits are read, with single underscores allowed between them.

  The validator's messages are kept word for word, including two that do
  not describe their own check:
  - a relative root is reported as "The path is absolute";
  - a negative minimum size is reported with the block-size message.
- **Whole-scan properties.** The remaining modules prove properties of the
  specification over whole walks:
  - digests happen at most once per file, and only for files that share
    their size;
  - the digest lists are sound, keep walk order and are complete;
  - the buckets only grow;
  - the total, the ignored list and the fatal path behave as described;
  - a small worked example.

Where the documentation and the code disagree, the model follows the code:

- The total counts a file whose digest later fails. `Model.py:137` adds the
  size before the digest is taken.
- The overflow path returns without setting the completion flag
  (`Model.py:153`).
- A file whose digest cannot be taken does not leave detection unaffected
  for the other files. When the waiting file of a size is unreadable, the
  bucket has already been replaced by an empty digest map
  (`Model.py:141-143`). The exception is then recorded under the path of
  the file that arrived second (`Model.py:155`). That second file is never
  digested or listed, so an equal third file is not reported with it.
  `Outcome.UnreadablePendingHidesPair` works this through.

## Model

| member | source | states |
|---|---|---|
| Engine.Model.constructor | Model.py:32-44 | a new engine has total 0, is not done, and has empty buckets, errors and ignored list; the parameters are stored as given |
| Engine.Model.InitialParamsCheck | Model.py:89-124 | succeeds exactly when all checks pass; leaves the converted parameters stored; on failure writes exactly the first failing check's message under the general-problem key and changes nothing else in the ledger |
| Engine.Model.GetHash | Model.py:79-87 | resets the hasher and reads blocks of at most the block size until an empty read; the result is the digest of the file's whole content, the open failure, or the overflow; on success the hasher was fed exactly the file's bytes; logs the path once |
| Engine.Model.StoreFile | Model.py:138-149 | changes the buckets and the digest log exactly as `Buckets.Store` says, and returns the exception raised part-way |
| Engine.Model.ConvertBucket | Model.py:140-144 | on the second file of a size, changes the buckets and the digest log exactly as `Buckets.Store` says for a pending bucket: emptied first, then the waiting file and the new one digested in that order |
| Engine.Model.AddToBucket | Model.py:145-149 | on a later file of a size, changes the buckets and the digest log exactly as `Buckets.Store` says for a digested bucket |
| Engine.Model.ScanEntry | Model.py:130-155 | one walked file changes the ledger exactly as `Buckets.Step` says, and asks to stop exactly on an overflow |
| Engine.Model.StartDuplicatesScan | Model.py:126-156 | the engine's new state is `Buckets.StartScan` of its old state: validation, then the walk until its end or the first overflow |
| Engine.Model.GetScanResults | Model.py:46-56 | runs the scan, then reports every digest list of more than one file exactly once, and nothing else |
| Report.CollectGroups | Model.py:53-56 | every group returned is a digest list of length > 1 in a digest map; every such list is returned; no (size, digest) pair is returned twice |
| Validation.PathProblem | Model.py:90-100 | no problem exactly when the root exists, is absolute and is a directory; the checks run in that order, giving the missing-path, not-absolute and not-a-directory messages respectively |
| Validation.Converted | Model.py:103-104 | a convertible parameter is replaced by its integer value; any other is left as it was |
| Validation.CheckParams | Model.py:89-124 | passes exactly when every check passes, and then both sizes are converted and in range; path failures come first and convert nothing; a block-size failure leaves the minimum size unconverted; the minimum size is checked last, with the message its failure kind selects, and leaves both sizes as far as they converted |
| Conversion.ParseInt | Model.py:104-115 | `int()` on a string accepts only text containing a digit, and gives a negative value only when the text has a minus sign; the surrounding-whitespace, sign and underscore rules themselves are the definition, and ParseRender is the round trip proved about it |
| Conversion.SeparatorRejected | Model.py:104 | a str holding an information separator (28-31) anywhere is not an integer, although `str.strip` would remove one at either end |
| Validation.SeparatorBlockSizeRefused | Model.py:104-107 | once the root passes its checks, a block size given as such a str is refused with the block-size message and stays stored as given |
| Conversion.ParseRender | Model.py:104 | `int()` reads back every integer from its decimal form |
| Digesting.FileHash | Model.py:79-87 | a file digests exactly when it opens and the block size fits a read, and then its digest is that of its whole content; an unopenable file gives its open error; a readable one with too large a block size overflows |
| Digesting.Hasher.Reset | Model.py:80 | the hasher forgets everything fed to it |
| Digesting.Hasher.Update | Model.py:86 | the block is appended to what the hasher was fed |
| Digesting.Hasher.HexDigest | Model.py:87 | the digest is that of everything fed since the reset |
| Digesting.OpenFile.Read | Model.py:83 | a read size above 2^63 - 1 - 33 (the largest bytes object a 64-bit CPython can allocate) overflows and reads nothing; otherwise the next block of at most that size, empty exactly at the end of the file |
| Buckets.Append | Model.py:147-149 | the digest's list gains the path at its end and is created if new; every other list is unchanged |
| Buckets.Stored | Model.py:138-149 | the bucket is pending exactly when the size is new, and then holds the new file |
| Buckets.Store | Model.py:138-149 | only the bucket of the file's size changes; the total, the errors and the ignored list are untouched |
| Buckets.Step | Model.py:131-155 | one walked file adds its size to the total exactly when it is counted, even if storing it fails; it joins the ignored list exactly when it is below the minimum size; only a counted file can stop the walk, and a stop leaves exactly one general error |
| Buckets.StepParts | Model.py:133-149 | a counted file changes buckets, digest log and total as storing it does; any other file leaves them alone |
| Buckets.Run | Model.py:129-155 | over any prefix of the walk the total never decreases, and a walk stopped by an overflow has exactly the one general error in its ledger |
| Buckets.StartScan | Model.py:126-156 | the total never decreases and the completion flag only ever goes from false to true |
| Buckets.RunStaysAborted | Model.py:150-153 | once an overflow stops the walk, the later files change nothing |
| ScanProperties.FirstFileOfSize | Model.py:138-139 | the first file of a size becomes a pending bucket; nothing is digested; the total grows by its size |
| ScanProperties.SecondFileOfSize | Model.py:140-144 | the second file digests the pending file and then itself, each once; the digest map lists the pending file before the new one; a failed second digest keeps the pending file alone in the digest map and records the error under the new file; a failed first digest leaves an empty digest map and records the error under the new file |
| ScanProperties.LaterFileOfSize | Model.py:145-149 | a later file is digested once and appended at the end of its digest's list; other lists and other sizes are unchanged |
| ScanProperties.UnreadableFileCounted | Model.py:137-155 | a file whose digest fails still adds its size to the total, has its error recorded under its path, and leaves the bucket unchanged |
| ScanProperties.SmallFilesOnlyIgnored | Model.py:133-136 | over any stretch of the walk made only of files below the minimum size, the ledger changes only by appending those files to the ignored list, in walk order; the walk cannot stop there |
| ScanProperties.FaultsInStep | Model.py:132-155 | the walk stops exactly on an overflow, which leaves only the general error; otherwise the ledger gains at most one entry, under the current path: the size lookup's message when the lookup failed, the store's read error when storing a counted file failed, and nothing otherwise |
| ScanProperties.StepKeepsFileErrors | Model.py:132-155 | one more walked file with a new path keeps the per-file ledger facts of a completed walk |
| ScanProperties.RunFileErrors | Model.py:132-155 | after a completed walk that lists each path once, every ledger entry is under a walked path; a file whose size lookup failed has that message; an undersized file has no entry; a counted file's entry is the read error of a file the scan digested |
| ScanProperties.RunTotal | Model.py:133-137 | a completed walk's total is the sum of the sizes of all counted files, including those whose digest failed |
| ScanProperties.RunIgnored | Model.py:134-136 | a completed walk's ignored list is exactly the undersized files, once each, in walk order |
| HashOnce.StoreKeepsHashOnce | Model.py:138-149 | storing a file the walk had not produced before keeps the digest log free of repeats |
| HashOnce.StepKeepsHashOnce | Model.py:130-155 | one walked file keeps the digest log free of repeats |
| HashOnce.HashedAtMostOnce | Model.py:138-149 | over a walk that lists each path once, no path is digested twice, and only walked paths are digested |
| SharedSize.StoredKeepsSizes | Model.py:138-149 | after a file is stored, every bucket's size is a counted size, a pending file is a counted file of its size, and a digested size holds two counted files |
| SharedSize.CallsKeepShared | Model.py:138-149 | every path digested while storing a file shares its size with another counted file |
| SharedSize.StepKeepsSizeInv | Model.py:130-155 | one walked file keeps those size facts |
| SharedSize.HashedOnlyWhenSizeShared | Model.py:138-149 | over any walk, every digested file shares its size with another counted file |
| Grouping.StoreKeepsSound | Model.py:138-149 | after a file is stored, every digest list holds only counted files of its size whose digest is the list's digest |
| Grouping.StoreKeepsOrder | Model.py:138-149 | after a file is stored, every digest list keeps the order of the counted files |
| Grouping.StoreKeepsComplete | Model.py:138-149 | when every counted file of a size digests, every counted file of that size stays filed: as its size's pending file, or in its own digest's list |
| Grouping.RunKeepsSoundOrder | Model.py:126-156 | after any walk the digest lists are sound and in walk order |
| Grouping.RunComplete | Model.py:126-156 | after a completed walk in which every counted file of a size digests, every counted file of that size is filed, whatever happened to files of other sizes |
| Growth.StoreGrows | Model.py:138-149 | storing a file only adds buckets; a pending bucket stays or becomes a digest map; a digest map keeps every list as a prefix |
| Growth.StepGrows | Model.py:130-155 | one walked file only grows the buckets |
| Growth.RunGrows | Model.py:126-156 | a whole walk only grows the buckets |
| Duplicates.ReportedAreDuplicates | Model.py:53-56 | every member of a reported group is a counted file of the group's size with the group's digest; members keep walk order |
| Duplicates.EqualContentReported | Model.py:53-56 | after a completed walk in which every counted file of their size digests, two different files of equal size and equal digest are in one reported group; unreadable files of other sizes do not matter |
| Duplicates.ReportedShareSize | Model.py:53-56 | if the walk lists each path once, every member of a reported group shares its size with another counted file, so a file of unique size is never reported |
| Duplicates.GroupedFilesAgree | Model.py:53-56 | any two members of a reported group have the group's digest, so files whose digests differ never share a group |
| Duplicates.ReportedGroupUnique | Model.py:53-56 | if the walk lists each path once, a file belongs to at most one reported group |
| Duplicates.IgnoredNeverReported | Model.py:134-136 | if the walk lists each path once, a file below the minimum size is never digested and never in a reported group |
| Outcome.InvalidParamsStopEarly | Model.py:126-128 | invalid parameters leave one general problem, nothing walked or digested, total 0, and the scan not done |
| Outcome.MissingRootRefused | Model.py:91-93 | a missing root leaves exactly the missing-path problem, total 0, nothing digested, and the scan not done |
| Outcome.ValidScan | Model.py:126-156 | with valid parameters, the scan is done exactly when the walk ran to its end; then the total is the sum of the counted sizes and the ignored list is the undersized files; otherwise the ledger is the one overflow error |
| Outcome.ScanDigestsSparingly | Model.py:138-149 | over a walk that lists each path once, any scan digests each file at most once, and only files that share their size |
| Outcome.SmallTreeRun | Model.py:129-156 | worked example: the walk of three 5-byte files and one 3-byte file with minimum 4 ends running, with the one digested size holding the equal pair in one list and the third file in another, the small file ignored, and total 15 |
| Outcome.UnreadablePendingPair | Model.py:138-155 | when the waiting file of a size is unreadable, the second file's arrival leaves an empty digest map, records the waiting file's error under the second file's path, and digests only the waiting file |
| Outcome.UnreadablePendingHidesPair | Model.py:138-155 | after an unreadable waiting file, two equal files of its size are not reported: only the third is listed, and the error sits under the second file's path |
| Outcome.SmallTree | Model.py:126-156 | worked example: for three 5-byte files (two equal) and one 3-byte file with minimum 4, the only group is the equal pair in walk order, the small file is ignored, the total is 15 and there are no errors |

## Left out

- The graphical interface (`View.py`) and the controller (`Controller.py`)
  are not part of this model. This excludes the tkinter widgets, the
  progress-polling threads and the text of the report. The controller also
  calls members that `Model.py` does not define.
- `human_bytes` is left out: it is floating-point formatting for display.
- The report's text is not modelled, only which groups it selects. This
  covers the re-stat of the first member at `Model.py:58` (file-system I/O)
  and the branch at `Model.py:62`, which can never run.
- The digest algorithm is not modelled. xxhash and the choice between its
  32- and 64-bit variants (`Model.py:37`) are replaced by a function from a
  file's whole content to a digest.
- File-system access is an input, not modelled I/O. This covers `os.walk`,
  `os.path.getsize`, the root path tests, and `open`/`read`.
- The root path tests are modelled as three facts that always have an
  answer. `Path.exists()` at `Model.py:91` can itself raise, for instance
  `PermissionError` for a root below a directory the user may not search.
  That exception escapes the validator, the scan and `get_scan_results`
  with no ledger entry and the scan not done, and the model cannot
  express that outcome.
- The walk is modelled as one flat sequence of files, and its traversal
  order is part of that input. The nested per-directory loop is not
  modelled.
- Errors that `os.walk` swallows by default are not modelled, because the
  walk never reports them.
- A read that fails part-way through a file is modelled as a file that
  cannot be opened. Both end the same way: one per-file error under the
  path.
- Only reads whose size exceeds the largest bytes object a 64-bit CPython
  can allocate (2^63 - 1 - 33 bytes) are modelled as overflowing. A smaller
  but still huge block size can make a read fail for lack of memory. That
  failure is an ordinary per-file error, and the model does not
  distinguish it. A 32-bit interpreter has a smaller bound, which is not
  modelled.
- `int()` on non-ASCII decimal digits is not modelled.
- `int()`'s limit on the number of digits is not modelled.
- `int()` on values other than strings and integers is not modelled.
- The per-file error ledger stores a message string where the source
  stores the exception object.
- The constructor's default minimum size of 0 is not modelled. Callers pass
  it explicitly.
- HashOnce.HashedAtMostOnce: assumes that the walk lists each path once,
  as `os.walk` does for an ordinary tree. A walk that repeats a path
  digests it again, so the model states the property under that hypothesis.
- Duplicates.ReportedShareSize: assumes, like the previous item, that the
  walk lists each path once.
- Duplicates.IgnoredNeverReported: assumes, like the previous item, that the
  walk lists each path once.
- Duplicates.ReportedGroupUnique: assumes, like the previous item, that the
  walk lists each path once.
- Outcome.ScanDigestsSparingly: assumes, like the previous item, that the
  walk lists each path once.
- ScanProperties.RunFileErrors: assumes that the walk lists each path once
  and runs to its end. A repeated path would overwrite its earlier entry,
  and an overflow replaces the whole ledger, which `Buckets.Run` states.
- Duplicates.EqualContentReported: is stated only for walks that finish and
  in which every counted file of the pair's size digests. When the waiting
  file of that size is unreadable, the file that arrives second is never
  digested or listed (`Model.py:141-143`, `Model.py:155`), so an equal
  pair can go unreported; `Outcome.UnreadablePendingHidesPair` shows it.
  Files of other sizes do not matter.

=== FILE: buckets.dfy ===
/**
 * The scan as a specification: the size buckets, the ledger, and what one
 * walked file does to them. The engine's class in module Engine is proved
 * to change its fields exactly as these functions say.
 */
module Buckets {
  import opened Wrappers
  import opened Files
  import opened Conversion
  import opened Validation
  import opened Digesting

  /**
   * The state of one file size: the first file of that size is kept as a
   * bare path with no digest; from the second one on, the files of that size
   * are kept per digest, each list in the order the files were met.
   */
  datatype Bucket = Pending(path: Path) | Hashed(groups: map<Digest, seq<Path>>)

  /** Keys of the error ledger: the two general entries, or a file's path. */
  datatype ErrorKey = GeneralProblem | GeneralError | AtFile(path: Path)

  const OverflowMessage := "Block size is too large"

  /**
   * The scan's mutable state: the running total of sizes, the size buckets,
   * the error ledger, the ignored files, and (for the proofs only) every
   * path handed to the digest routine, in call order.
   */
  datatype ScanState = ScanState(
    total: nat,
    results: map<nat, Bucket>,
    errors: map<ErrorKey, string>,
    ignored: seq<Path>,
    hashed: seq<Path>)

  /** The state a new engine starts in. */
  function Initial(): ScanState
  {
    ScanState(0, map[], map[], [], [])
  }

  /** What an exception raised while storing one file is. */
  datatype Fault = NoFault | FileFault(message: string) | OverflowFault

  function FaultOf(h: HashOutcome): Fault
  {
    match h
    case Digested(_) => NoFault
    case ReadFailed(m) => FileFault(m)
    case Overflowed => OverflowFault
  }

  /** Appends `p` to the list of digest `d`, creating the list if `d` is new. */
  function Append(g: map<Digest, seq<Path>>, d: Digest, p: Path): (r: map<Digest, seq<Path>>)
    ensures r.Keys == g.Keys + {d}
    ensures r[d] == (if d in g then g[d] else []) + [p]
    ensures forall d' :: d' in g && d' != d ==> r[d'] == g[d']
  {
    g[d := (if d in g then g[d] else []) + [p]]
  }

  /** The bucket a size has before a file of that size arrives, if any. */
  function BucketOf(s: ScanState, size: nat): Option<Bucket>
  {
    if size in s.results then Some(s.results[size]) else None
  }

  /**
   * The paths handed to the digest routine when file `p` arrives at a size
   * whose bucket is `b`: none for a new size; for a pending size the
   * pending file, then `p` unless the first digest failed; otherwise `p`.
   */
  function DigestCalls(b: Option<Bucket>, p: Path, hash: Path -> HashOutcome): seq<Path>
  {
    match b
    case None => []
    case Some(Pending(prev)) => if hash(prev).Digested? then [prev, p] else [prev]
    case Some(Hashed(_)) => [p]
  }

  /**
   * The bucket after file `p` arrives at a size whose bucket is `b`. A
   * pending bucket is emptied into a digest map before either digest is
   * taken, so a failed first digest leaves it empty and a failed second
   * digest leaves only the first file in it.
   */
  function Stored(b: Option<Bucket>, p: Path, hash: Path -> HashOutcome): (nb: Bucket)
    ensures nb.Pending? <==> b.None?
    ensures b.None? ==> nb == Pending(p)
  {
    match b
    case None => Pending(p)
    case Some(Pending(prev)) =>
      (match hash(prev)
       case Digested(d1) =>
         var first := Append(map[], d1, prev);
         (match hash(p)
          case Digested(d2) => Hashed(Append(first, d2, p))
          case _ => Hashed(first))
       case _ => Hashed(map[]))
    case Some(Hashed(g)) =>
      match hash(p)
      case Digested(d) => Hashed(Append(g, d, p))
      case _ => Hashed(g)
  }

  /** The exception, if any, raised while file `p` is stored at a size whose bucket is `b`. */
  function StoreFault(b: Option<Bucket>, p: Path, hash: Path -> HashOutcome): Fault
  {
    match b
    case None => NoFault
    case Some(Pending(prev)) => if hash(prev).Digested? then FaultOf(hash(p)) else FaultOf(hash(prev))
    case Some(Hashed(_)) => FaultOf(hash(p))
  }

  /**
   * Stores one counted file of the given size in its bucket, digesting as
   * the bucket's state demands, and says which exception (if any) stopped
   * the store part-way.
   */
  function Store(s: ScanState, p: Path, size: nat, hash: Path -> HashOutcome): (r: (ScanState, Fault))
    ensures r.0.total == s.total && r.0.errors == s.errors && r.0.ignored == s.ignored
    ensures size in r.0.results
    ensures forall k :: k != size ==>
      (k in r.0.results <==> k in s.results) && (k in s.results ==> r.0.results[k] == s.results[k])
  {
    var b := BucketOf(s, size);
    (s.(results := s.results[size := Stored(b, p, hash)], hashed := s.hashed + DigestCalls(b, p, hash)),
     StoreFault(b, p, hash))
  }

  /** Where the walk stands after a file: still running, or stopped by an overflow. */
  datatype RunOutcome = Running(state: ScanState) | Aborted(state: ScanState)

  /**
   * One walked file: a failed size lookup is recorded against the path; a
   * file below the minimum size is ignored; any other file is added to the
   * total first and then stored. A per-file exception is recorded against
   * the current path; an overflow clears the ledger down to one general
   * error and stops the walk.
   */
  function Step(s: ScanState, e: WalkEntry, minSize: int, hash: Path -> HashOutcome): (r: RunOutcome)
    // the total grows by the size of a counted file, even when storing it fails
    ensures r.state.total == s.total + if e.Sized? && e.size >= minSize then e.size else 0
    // the ignored list grows by an undersized file and by nothing else
    ensures r.state.ignored == s.ignored + if e.Sized? && e.size < minSize then [e.path] else []
    // only a counted file can stop the walk, and a stop leaves one general error
    ensures r.Aborted? ==> e.Sized? && e.size >= minSize && r.state.errors == map[GeneralError := OverflowMessage]
  {
    match e
    case StatFailed(p, m) => Running(s.(errors := s.errors[AtFile(p) := m]))
    case Sized(p, size) =>
      if size < minSize then Running(s.(ignored := s.ignored + [p]))
      else
        var (t, f) := Store(s.(total := s.total + size), p, size, hash);
        match f
        case NoFault => Running(t)
        case FileFault(m) => Running(t.(errors := t.errors[AtFile(p) := m]))
        case OverflowFault => Aborted(t.(errors := map[GeneralError := OverflowMessage]))
  }

  /**
   * What one walked file leaves in the buckets, the digest log, the total
   * and the ignored list: a counted file leaves what storing it leaves,
   * any other file leaves them alone (apart from the ignored list).
   */
  lemma StepParts(s: ScanState, e: WalkEntry, minSize: int, hash: Path -> HashOutcome)
    ensures var r := Step(s, e, minSize, hash);
      if e.Sized? && e.size >= minSize then
        var t := Store(s.(total := s.total + e.size), e.path, e.size, hash).0;
        r.state.results == t.results && r.state.hashed == t.hashed && r.state.total == t.total &&
        r.state.ignored == s.ignored
      else
        r.Running? && r.state.results == s.results && r.state.hashed == s.hashed && r.state.total == s.total
  {
  }

  /** The walk over `es` from state `s`, stopping at the first overflow. */
  function Run(s: ScanState, es: seq<WalkEntry>, minSize: int, hash: Path -> HashOutcome): (r: RunOutcome)
    ensures r.state.total >= s.total
    ensures r.Aborted? ==> es != [] && r.state.errors == map[GeneralError := OverflowMessage]
    decreases |es|
  {
    if es == [] then Running(s)
    else
      match Run(s, es[..|es| - 1], minSize, hash)
      case Aborted(t) => Aborted(t)
      case Running(t) => Step(t, es[|es| - 1], minSize, hash)
  }

  /** Everything the engine object holds that a scan reads or writes. */
  datatype EngineState = EngineState(blockSize: PyValue, minSize: PyValue, scan: ScanState, done: bool)

  /** A freshly constructed engine. */
  function Fresh(blockSize: PyValue, minSize: PyValue): EngineState
  {
    EngineState(blockSize, minSize, Initial(), false)
  }

  /**
   * One scan: validate, and on success walk the root; the completion flag is
   * set only when the walk ran to its end.
   */
  function StartScan(m: EngineState, fs: FileSystem, root: Path, algo: seq<Byte> -> Digest): (r: EngineState)
    ensures r.scan.total >= m.scan.total
    ensures r.done != m.done ==> r.done
  {
    var c := CheckParams(fs.facts(root), m.blockSize, m.minSize);
    match c.problem
    case Some(msg) =>
      EngineState(c.blockSize, c.minSize, m.scan.(errors := m.scan.errors[GeneralProblem := msg]), m.done)
    case None =>
      var o := Run(m.scan, fs.walk(root), c.minSize.i, HashOf(fs.content, c.blockSize.i, algo));
      EngineState(c.blockSize, c.minSize, o.state, if o.Running? then true else m.done)
  }

  /** The two ways a scan can go: refused by the validator, or the walk from the converted parameters. */
  lemma StartScanCases(m: EngineState, fs: FileSystem, root: Path, algo: seq<Byte> -> Digest)
    ensures var c := CheckParams(fs.facts(root), m.blockSize, m.minSize);
      var r := StartScan(m, fs, root, algo);
      && (c.problem.Some? ==>
            r == EngineState(c.blockSize, c.minSize, m.scan.(errors := m.scan.errors[GeneralProblem := c.problem.value]), m.done))
      && (c.problem.None? ==>
            var o := Run(m.scan, fs.walk(root), c.minSize.i, HashOf(fs.content, c.blockSize.i, algo));
            r == EngineState(c.blockSize, c.minSize, o.state, if o.Running? then true else m.done))
  {
  }

  /** Once the walk has stopped, the files after the stop change nothing. */
  lemma {:induction false} RunStaysAborted(s: ScanState, es: seq<WalkEntry>, k: nat, minSize: int, hash: Path -> HashOutcome)
    requires k <= |es|
    requires Run(s, es[..k], minSize, hash).Aborted?
    ensures Run(s, es, minSize, hash) == Run(s, es[..k], minSize, hash)
    decreases |es|
  {
    if k < |es| {
      assert es[..|es| - 1][..k] == es[..k];
      RunStaysAborted(s, es[..|es| - 1], k, minSize, hash);
    } else {
      assert es[..k] == es;
    }
  }
}

=== FILE: conversion.dfy ===
/**
 * Python's `int(...)` applied to the two kinds of value the engine's
 * parameters can hold: an int (returned as it is) or a str (parsed as a
 * base-10 literal).
 */
module Conversion {
  import opened Wrappers

  /** A parameter value as the user interface hands it over. */
  datatype PyValue = Str(s: string) | Int(i: int)

  /**
   * Characters `int()` skips around a literal in a str. Among ASCII
   * characters only the C-locale white space counts: the controls 9-13 and
   * the space. The separators 28-31, which `str.strip` would remove, are
   * not skipped. Non-ASCII white space is first turned into a space, so it
   * is skipped too.
   */
  predicate IsSpace(c: char)
  {
    var n := c as int;
    (9 <= n <= 13) || n == 32 || n == 0x85 || n == 0xA0 || n == 0x1680
    || (0x2000 <= n <= 0x200A) || n == 0x2028 || n == 0x2029 || n == 0x202F
    || n == 0x205F || n == 0x3000
  }

  predicate IsDigit(c: char)
  {
    '0' <= c <= '9'
  }

  function DigitValue(c: char): (d: nat)
    requires IsDigit(c)
    ensures d < 10
  {
    (c as int) - ('0' as int)
  }

  function DigitChar(d: nat): (c: char)
    requires d < 10
    ensures IsDigit(c) && DigitValue(c) == d
  {
    (('0' as int) + d) as char
  }

  /** `s` without its leading whitespace. */
  function StripLeft(s: string): (r: string)
    ensures |r| <= |s| && r == s[|s| - |r|..]
    ensures r != [] ==> !IsSpace(r[0])
    ensures forall i :: 0 <= i < |s| - |r| ==> IsSpace(s[i])
  {
    if s != [] && IsSpace(s[0]) then StripLeft(s[1..]) else s
  }

  /** `s` without its trailing whitespace. */
  function StripRight(s: string): (r: string)
    ensures |r| <= |s| && r == s[..|r|]
    ensures r != [] ==> !IsSpace(r[|r| - 1])
    ensures forall i :: |r| <= i < |s| ==> IsSpace(s[i])
  {
    if s != [] && IsSpace(s[|s| - 1]) then StripRight(s[..|s| - 1]) else s
  }

  /**
   * The digits of a base-10 literal: at least one digit, every character a
   * digit or `_`, and each `_` standing between two digits.
   */
  predicate WellFormedDigits(body: string)
  {
    && body != []
    && IsDigit(body[0])
    && IsDigit(body[|body| - 1])
    && (forall i :: 0 <= i < |body| ==> IsDigit(body[i]) || body[i] == '_')
    && (forall i :: 0 <= i < |body| - 1 ==> body[i] == '_' ==> body[i + 1] != '_')
  }

  /** The value of a digit string, underscores skipped. */
  function DigitsValue(body: string): nat
    requires forall i :: 0 <= i < |body| ==> IsDigit(body[i]) || body[i] == '_'
  {
    if body == [] then 0
    else
      var last := body[|body| - 1];
      if last == '_' then DigitsValue(body[..|body| - 1])
      else DigitsValue(body[..|body| - 1]) * 10 + DigitValue(last)
  }

  /** `int(s)` for a str `s`: None where Python raises ValueError. */
  function ParseInt(s: string): (r: Option<int>)
    ensures r.Some? ==> exists k :: 0 <= k < |s| && IsDigit(s[k])
    // a negative value needs a minus sign somewhere in the text
    ensures r.Some? && r.value < 0 ==> exists k :: 0 <= k < |s| && s[k] == '-'
  {
    var t := StripRight(StripLeft(s));
    if t == [] then None
    else
      var negative := t[0] == '-';
      var body := if t[0] == '-' || t[0] == '+' then t[1..] else t;
      if !WellFormedDigits(body) then None
      else
        assert IsDigit(body[0]);
        var v: int := DigitsValue(body);
        Some(if negative then -v else v)
  }

  /** `int(v)`: an int is returned unchanged, a str is parsed. */
  function IntOf(v: PyValue): Option<int>
  {
    match v
    case Int(i) => Some(i)
    case Str(s) => ParseInt(s)
  }

  /** `str(n)` for a natural number: its decimal digits. */
  function Decimal(n: nat): (s: string)
    ensures s != [] && forall i :: 0 <= i < |s| ==> IsDigit(s[i])
  {
    if n < 10 then [DigitChar(n)] else Decimal(n / 10) + [DigitChar(n % 10)]
  }

  /** `str(n)` for any int. */
  function Render(n: int): string
  {
    if n < 0 then "-" + Decimal(-n) else Decimal(n)
  }

  lemma {:induction false} DecimalValue(n: nat)
    ensures DigitsValue(Decimal(n)) == n
  {
    var s := Decimal(n);
    if n >= 10 {
      DecimalValue(n / 10);
      assert s[..|s| - 1] == Decimal(n / 10);
    }
  }

  /** Stripping leaves a string alone that neither starts nor ends with whitespace. */
  lemma StripUnchanged(s: string)
    requires s != [] && !IsSpace(s[0]) && !IsSpace(s[|s| - 1])
    ensures StripRight(StripLeft(s)) == s
  {
    assert StripLeft(s) == s;
  }

  /** Decimal digits form a well-formed literal whose value is the number. */
  lemma DecimalParses(n: nat)
    ensures WellFormedDigits(Decimal(n)) && DigitsValue(Decimal(n)) == n
  {
    DecimalValue(n);
  }

  /**
   * The information separators 28-31, which `str.strip` would remove, are
   * not skipped by `int()`: a str holding one of them anywhere is not an
   * integer.
   */
  lemma SeparatorRejected(s: string, k: nat)
    requires k < |s| && 28 <= s[k] as int <= 31
    ensures ParseInt(s) == None
  {
    var t := StripRight(StripLeft(s));
    var j := StrippedKeeps(s, k);
    var body := if t[0] == '-' || t[0] == '+' then t[1..] else t;
    var i := if t[0] == '-' || t[0] == '+' then j - 1 else j;
    assert 0 <= i < |body| && body[i] == s[k];
    assert !WellFormedDigits(body) by {
      assert !(IsDigit(body[i]) || body[i] == '_');
    }
  }

  /** A character that is not white space survives stripping, at index `j` of the result. */
  lemma StrippedKeeps(s: string, k: nat) returns (j: nat)
    requires k < |s| && !IsSpace(s[k])
    ensures j < |StripRight(StripLeft(s))| && StripRight(StripLeft(s))[j] == s[k]
  {
    var l := StripLeft(s);
    j := k - (|s| - |l|);
    assert l[j] == s[k];
  }

  /** Parsing what `str` prints gives the number back: `int(str(n)) == n`. */
  lemma ParseRender(n: int)
    ensures ParseInt(Render(n)) == Some(n)
    ensures IntOf(Str(Render(n))) == IntOf(Int(n))
  {
    var s := Render(n);
    var m: nat := if n < 0 then -n else n;
    var d := Decimal(m);
    DecimalParses(m);
    if n < 0 {
      assert s == "-" + d && s[1..] == d;
      assert !IsSpace(s[|s| - 1]) by { assert s[|s| - 1] == d[|d| - 1]; }
    } else {
      assert s == d;
    }
    StripUnchanged(s);
  }
}

=== FILE: digesting.dfy ===
/**
 * Content digests. The digest algorithm itself is a parameter (a function
 * from a file's whole content to its printed digest); what is modelled is
 * the stateful hasher that is fed block by block, the reader that hands out
 * those blocks, and the outcome of digesting one file.
 */
module Digesting {
  import opened Files

  /**
   * The largest read size a binary file object accepts on a 64-bit CPython.
   * The size argument of a read is converted to a signed 64-bit count, and
   * the buffered reader then allocates a bytes object of that size before
   * reading; a bytes object needs 33 bytes of header, so any size above
   * 2^63 - 1 - 33 raises OverflowError before anything is read.
   */
  const MaxReadSize: int := 0x7FFF_FFFF_FFFF_FFFF - 33

  /** What digesting one file gives: its digest, or the exception raised. */
  datatype HashOutcome =
    | Digested(digest: Digest)
    | ReadFailed(message: string)
    | Overflowed

  /**
   * The outcome of digesting a file with the given block size: opening it
   * can fail; a block size too large for a read overflows; otherwise the
   * digest is that of the file's whole content.
   */
  function FileHash(content: FileContent, blockSize: int, algo: seq<Byte> -> Digest): (h: HashOutcome)
    ensures h.Digested? <==> content.Readable? && blockSize <= MaxReadSize
    ensures h.Digested? ==> h.digest == algo(content.data)
    ensures h.Overflowed? <==> content.Readable? && blockSize > MaxReadSize
    ensures content.Unopenable? ==> h == ReadFailed(content.message)
  {
    match content
    case Unopenable(m) => ReadFailed(m)
    case Readable(data) => if blockSize > MaxReadSize then Overflowed else Digested(algo(data))
  }

  /** Digesting as a function of the path, for a fixed file system and block size. */
  function HashOf(content: Path -> FileContent, blockSize: int, algo: seq<Byte> -> Digest): Path -> HashOutcome
  {
    p => FileHash(content(p), blockSize, algo)
  }

  /** A streaming hasher: it remembers everything fed to it since its last reset. */
  class Hasher {
    const algo: seq<Byte> -> Digest
    var fed: seq<Byte>

    constructor (algo: seq<Byte> -> Digest)
      ensures this.algo == algo && fed == []
    {
      this.algo := algo;
      fed := [];
    }

    method Reset()
      modifies this
      ensures fed == []
    {
      fed := [];
    }

    method Update(buf: seq<Byte>)
      modifies this
      ensures fed == old(fed) + buf
    {
      fed := fed + buf;
    }

    /** The digest of everything fed since the last reset. */
    method HexDigest() returns (d: Digest)
      ensures d == algo(fed)
    {
      d := algo(fed);
    }
  }

  /** What one read call gives: the next block of bytes, or the overflow it raised. */
  datatype ReadResult = Chunk(bytes: seq<Byte>) | ReadOverflow

  /** A file opened for binary reading, with its current position. */
  class OpenFile {
    const data: seq<Byte>
    var pos: nat

    constructor (data: seq<Byte>)
      ensures this.data == data && pos == 0
    {
      this.data := data;
      pos := 0;
    }

    /**
     * Reads at most `size` bytes from the current position; the block is
     * empty exactly at the end of the file.
     */
    method Read(size: int) returns (r: ReadResult)
      requires size > 0 && pos <= |data|
      modifies this
      ensures size > MaxReadSize ==> r == ReadOverflow && pos == old(pos)
      ensures size <= MaxReadSize ==>
        pos == (if old(pos) + size <= |data| then old(pos) + size else |data|) &&
        r == Chunk(data[old(pos)..pos])
    {
      if size > MaxReadSize {
        return ReadOverflow;
      }
      var stop := if pos + size <= |data| then pos + size else |data|;
      r := Chunk(data[pos..stop]);
      pos := stop;
    }
  }
}

=== FILE: duplicates.dfy ===
/**
 * What the reported groups mean for the files of a walk: a reported group
 * holds counted files of one size and one digest, in walk order; two
 * counted files of equal size and equal digest are reported together; a
 * file whose size no other counted file has, and a file below the minimum
 * size, are never reported.
 */
module Duplicates {
  import opened Files
  import opened Digesting
  import opened Buckets
  import opened WalkFacts
  import opened SharedSize
  import opened Grouping
  import opened Report

  /**
   * Every member of a reported group is a counted file of the group's size
   * whose digest is the group's digest, and the members keep walk order.
   */
  lemma ReportedAreDuplicates(es: seq<WalkEntry>, minSize: int, hash: Path -> HashOutcome, g: DuplicateGroup)
    requires IsReported(Run(Initial(), es, minSize, hash).state.results, g)
    ensures forall x :: x in g.members ==> FileSize(x, g.size) in Counted(es, minSize) && hash(x) == Digested(g.digest)
    ensures Subseq(g.members, Names(Counted(es, minSize)))
  {
    RunKeepsSoundOrder(es, minSize, hash);
    var r := Run(Initial(), es, minSize, hash).state.results;
    assert BucketSound(r[g.size], g.size, Counted(es, minSize), hash);
    assert ListSound(r[g.size].groups[g.digest], g.size, g.digest, Counted(es, minSize), hash);
  }

  /**
   * When the walk ran to its end and every counted file of their size could
   * be digested, two different counted files of the same size and the same
   * digest end up in one reported group. Files of other sizes may fail.
   */
  lemma EqualContentReported(es: seq<WalkEntry>, minSize: int, hash: Path -> HashOutcome, x: FileSize, y: FileSize)
    requires Run(Initial(), es, minSize, hash).Running?
    requires SizeDigests(Counted(es, minSize), x.size, hash)
    requires x in Counted(es, minSize) && y in Counted(es, minSize)
    requires x.path != y.path && x.size == y.size && hash(x.path) == hash(y.path)
    ensures var r := Run(Initial(), es, minSize, hash).state.results;
      && x.size in r && r[x.size].Hashed? && hash(x.path).Digested?
      && var d := hash(x.path).digest;
      && d in r[x.size].groups
      && var grp := DuplicateGroup(x.size, d, r[x.size].groups[d]);
      && IsReported(r, grp) && x.path in grp.members && y.path in grp.members
  {
    RunComplete(es, minSize, hash, x.size);
    var r := Run(Initial(), es, minSize, hash).state.results;
    assert Filed(r, x, hash) && Filed(r, y, hash);
  }

  /**
   * When the walk lists every path once, each member of a reported group
   * shares its size with another counted file: a file of unique size is
   * never reported.
   */
  lemma ReportedShareSize(es: seq<WalkEntry>, minSize: int, hash: Path -> HashOutcome, g: DuplicateGroup, x: Path)
    requires Distinct(PathsOf(es))
    requires IsReported(Run(Initial(), es, minSize, hash).state.results, g) && x in g.members
    ensures SharesSize(Counted(es, minSize), x)
  {
    ReportedAreDuplicates(es, minSize, hash, g);
    CountedDistinct(es, minSize);
    SubseqDistinct(g.members, Names(Counted(es, minSize)));
    MembersShareSize(Counted(es, minSize), g.members, g.size, x);
  }

  /** In a list of two or more different files of one counted size, each shares that size. */
  lemma MembersShareSize(c: seq<FileSize>, l: seq<Path>, k: nat, x: Path)
    requires Distinct(l) && |l| > 1 && x in l
    requires forall y :: y in l ==> FileSize(y, k) in c
    ensures SharesSize(c, x)
  {
    var y := if l[0] == x then l[1] else l[0];
    assert y in l && y != x;
    var i :| 0 <= i < |c| && c[i] == FileSize(x, k);
    var j :| 0 <= j < |c| && c[j] == FileSize(y, k);
    assert c[i].path == x && c[j].size == c[i].size && i != j;
  }

  /** When the walk lists every path once, a path's walk entry is unique. */
  lemma SameEntry(es: seq<WalkEntry>, p: Path, a: nat, b: nat)
    requires Distinct(PathsOf(es)) && Sized(p, a) in es && Sized(p, b) in es
    ensures a == b
  {
    var i :| 0 <= i < |es| && es[i] == Sized(p, a);
    var j :| 0 <= j < |es| && es[j] == Sized(p, b);
    assert PathsOf(es)[i] == PathsOf(es)[j];
  }

  /**
   * When the walk lists every path once, a file below the minimum size is
   * never digested and never reported.
   */
  lemma IgnoredNeverReported(es: seq<WalkEntry>, minSize: int, hash: Path -> HashOutcome, p: Path, size: nat)
    requires Distinct(PathsOf(es)) && Sized(p, size) in es && size < minSize
    ensures p !in Run(Initial(), es, minSize, hash).state.hashed
    ensures forall g :: IsReported(Run(Initial(), es, minSize, hash).state.results, g) ==> p !in g.members
  {
    var c := Counted(es, minSize);
    HashedOnlyWhenSizeShared(es, minSize, hash);
    if p in Run(Initial(), es, minSize, hash).state.hashed {
      var i, j :| 0 <= i < |c| && 0 <= j < |c| && i != j && c[i].path == p && c[j].size == c[i].size;
      assert c[i] in c;
      SameEntry(es, p, size, c[i].size);
      assert false;
    }
    forall g | IsReported(Run(Initial(), es, minSize, hash).state.results, g) ensures p !in g.members {
      if p in g.members {
        ReportedAreDuplicates(es, minSize, hash, g);
        SameEntry(es, p, size, g.size);
        assert false;
      }
    }
  }

  /** Two files of one reported group have the same digest: files whose contents differ are never grouped. */
  lemma GroupedFilesAgree(es: seq<WalkEntry>, minSize: int, hash: Path -> HashOutcome, g: DuplicateGroup, x: Path, y: Path)
    requires IsReported(Run(Initial(), es, minSize, hash).state.results, g)
    requires x in g.members && y in g.members
    ensures hash(x) == hash(y) == Digested(g.digest)
  {
    ReportedAreDuplicates(es, minSize, hash, g);
  }

  /**
   * When the walk lists every path once, a file is a member of at most one
   * reported group.
   */
  lemma ReportedGroupUnique(es: seq<WalkEntry>, minSize: int, hash: Path -> HashOutcome, g1: DuplicateGroup, g2: DuplicateGroup, x: Path)
    requires Distinct(PathsOf(es))
    requires IsReported(Run(Initial(), es, minSize, hash).state.results, g1) && x in g1.members
    requires IsReported(Run(Initial(), es, minSize, hash).state.results, g2) && x in g2.members
    ensures g1 == g2
  {
    ReportedAreDuplicates(es, minSize, hash, g1);
    ReportedAreDuplicates(es, minSize, hash, g2);
    var c := Counted(es, minSize);
    assert FileSize(x, g1.size) in c && FileSize(x, g2.size) in c;
    SameEntry(es, x, g1.size, g2.size);
  }
}

=== FILE: engine.dfy ===
/**
 * The duplicate-detection engine object. Its fields are updated in place by
 * the scan; every method is proved to change them exactly as the
 * specification in module Buckets says.
 */
module Engine {
  import opened Wrappers
  import opened Files
  import opened Conversion
  import opened Validation
  import opened Digesting
  import opened Buckets
  import opened Report

  class Model {
    // the parameters (the two sizes are overwritten by their int conversion)
    var blockSize: PyValue
    const path: Path
    var minSize: PyValue
    const hasher: Hasher
    // the file system the engine runs against
    const fs: FileSystem

    // the scan's state
    var totalSize: nat
    var doneSizeCalc: bool
    var results: map<nat, Bucket>
    var scanExceptions: map<ErrorKey, string>
    var ignoredFiles: seq<Path>
    // every path handed to GetHash, in call order
    ghost var hashLog: seq<Path>

    ghost function Ledger(): ScanState
      reads this
    {
      ScanState(totalSize, results, scanExceptions, ignoredFiles, hashLog)
    }

    ghost function Abstract(): EngineState
      reads this
    {
      EngineState(blockSize, minSize, Ledger(), doneSizeCalc)
    }

    /** The digest of each file, with the block size the scan reads with. */
    ghost function Hash(): Path -> HashOutcome
      reads this`blockSize
      requires blockSize.Int?
    {
      HashOf(fs.content, blockSize.i, hasher.algo)
    }

    constructor (blockSize: PyValue, path: Path, algo: seq<Byte> -> Digest, minSize: PyValue, fs: FileSystem)
      ensures Abstract() == Fresh(blockSize, minSize)
      ensures this.path == path && this.fs == fs && hasher.algo == algo && fresh(hasher)
    {
      this.blockSize := blockSize;
      this.path := path;
      this.minSize := minSize;
      hasher := new Hasher(algo);
      this.fs := fs;
      totalSize := 0;
      doneSizeCalc := false;
      results := map[];
      scanExceptions := map[];
      ignoredFiles := [];
      hashLog := [];
    }

    /**
     * The validator: checks the root path, then the block size, then the
     * minimum size; the first failure is written to the ledger as the one
     * general problem.
     */
    method InitialParamsCheck() returns (ok: bool)
      modifies this`blockSize, this`minSize, this`scanExceptions
      ensures var c := CheckParams(fs.facts(path), old(blockSize), old(minSize));
        && ok == c.problem.None?
        && blockSize == c.blockSize && minSize == c.minSize
        && scanExceptions == if ok then old(scanExceptions) else old(scanExceptions)[GeneralProblem := c.problem.value]
    {
      // the root path
      var facts := fs.facts(path);
      if !facts.pathExists {
        scanExceptions := scanExceptions[GeneralProblem := PathMissing];
        return false;
      }
      if !facts.isAbsolute {
        scanExceptions := scanExceptions[GeneralProblem := PathNotAbsolute];
        return false;
      }
      if !facts.isDir {
        scanExceptions := scanExceptions[GeneralProblem := PathNotDirectory];
        return false;
      }
      // the block size
      match IntOf(blockSize) {
        case None =>
          scanExceptions := scanExceptions[GeneralProblem := BlockSizeInvalid];
          return false;
        case Some(n) =>
          blockSize := Int(n);
      }
      if blockSize.i <= 0 {
        scanExceptions := scanExceptions[GeneralProblem := BlockSizeInvalid];
        return false;
      }
      // the minimum size
      match IntOf(minSize) {
        case None =>
          scanExceptions := scanExceptions[GeneralProblem := MinSizeNotInteger];
          return false;
        case Some(n) =>
          minSize := Int(n);
      }
      if minSize.i < 0 {
        scanExceptions := scanExceptions[GeneralProblem := MinSizeNegative];
        return false;
      }
      return true;
    }

    /**
     * Digests one file: resets the shared hasher, then feeds it the file
     * block by block until a read comes back empty. On success the hasher
     * has been fed exactly the file's content.
     */
    method GetHash(p: Path) returns (h: HashOutcome)
      requires blockSize.Int? && blockSize.i > 0
      modifies this`hashLog, hasher
      ensures h == Hash()(p)
      ensures hashLog == old(hashLog) + [p]
      ensures h.Digested? ==> fs.content(p).Readable? && hasher.fed == fs.content(p).data
    {
      hashLog := hashLog + [p];
      hasher.Reset();
      match fs.content(p) {
        case Unopenable(m) =>
          return ReadFailed(m);
        case Readable(data) =>
          var f := new OpenFile(data);
          while true
            invariant f.pos <= |data| && hasher.fed == data[..f.pos]
            invariant hashLog == old(hashLog) + [p]
            decreases |data| - f.pos
          {
            var r := f.Read(blockSize.i);
            match r {
              case ReadOverflow =>
                return Overflowed;
              case Chunk(buf) =>
                if buf == [] {
                  break;
                }
                hasher.Update(buf);
            }
          }
          assert data[..f.pos] == data;
          var d := hasher.HexDigest();
          h := Digested(d);
      }
    }

    /**
     * Stores one counted file in the bucket of its size: the first file of a
     * size is kept unhashed, the second digests both, later ones digest only
     * themselves. Returns the exception that interrupted it, if any.
     */
    method StoreFile(p: Path, size: nat) returns (fault: Fault)
      requires blockSize.Int? && blockSize.i > 0
      modifies this`results, this`hashLog, hasher
      ensures (Ledger(), fault) == Store(old(Ledger()), p, size, Hash())
    {
      if size !in results {
        results := results[size := Pending(p)];
        assert hashLog == old(hashLog) + [];
        return NoFault;
      }
      match results[size] {
        case Pending(prev) =>
          fault := ConvertBucket(prev, p, size);
        case Hashed(g) =>
          fault := AddToBucket(g, p, size);
      }
    }

    /**
     * The second file of a size: the bucket becomes an empty digest map,
     * then the waiting file and the new one are digested and listed, in
     * that order.
     */
    method ConvertBucket(prev: Path, p: Path, size: nat) returns (fault: Fault)
      requires blockSize.Int? && blockSize.i > 0
      requires size in results && results[size] == Pending(prev)
      modifies this`results, this`hashLog, hasher
      ensures (Ledger(), fault) == Store(old(Ledger()), p, size, Hash())
    {
      results := results[size := Hashed(map[])];
      var h1 := GetHash(prev);
      if !h1.Digested? {
        return FaultOf(h1);
      }
      var first := Append(map[], h1.digest, prev);
      results := results[size := Hashed(first)];
      var h2 := GetHash(p);
      assert hashLog == old(hashLog) + [prev, p];
      ghost var seeded := old(Ledger()).(results := old(results)[size := Hashed(first)], hashed := old(hashLog) + [prev, p]);
      assert Ledger() == seeded;
      assert Hash()(prev) == Digested(h1.digest) && Hash()(p) == h2;
      if !h2.Digested? {
        return FaultOf(h2);
      }
      results := results[size := Hashed(Append(first, h2.digest, p))];
      assert Ledger() == seeded.(results := old(results)[size := Hashed(Append(first, h2.digest, p))]);
      return NoFault;
    }

    /** A later file of a size: it is digested and appended to its digest's list. */
    method AddToBucket(g: map<Digest, seq<Path>>, p: Path, size: nat) returns (fault: Fault)
      requires blockSize.Int? && blockSize.i > 0
      requires size in results && results[size] == Hashed(g)
      modifies this`results, this`hashLog, hasher
      ensures (Ledger(), fault) == Store(old(Ledger()), p, size, Hash())
    {
      var h := GetHash(p);
      if !h.Digested? {
        assert results == old(results)[size := Hashed(g)];
        return FaultOf(h);
      }
      results := results[size := Hashed(Append(g, h.digest, p))];
      return NoFault;
    }

    /**
     * One file of the walk: a failed size lookup is recorded against its
     * path, a file below the minimum size is ignored, any other file is
     * added to the total and then stored; an exception while storing is
     * recorded against the current path, except an overflow, which replaces
     * the whole ledger with one general error and asks the walk to stop.
     */
    method ScanEntry(e: WalkEntry) returns (stop: bool)
      requires blockSize.Int? && blockSize.i > 0 && minSize.Int?
      modifies this`totalSize, this`results, this`scanExceptions, this`ignoredFiles, this`hashLog, hasher
      ensures Step(old(Ledger()), e, minSize.i, Hash()) == if stop then Aborted(Ledger()) else Running(Ledger())
    {
      stop := false;
      match e {
        case StatFailed(p, m) =>
          scanExceptions := scanExceptions[AtFile(p) := m];
        case Sized(p, size) =>
          if size < minSize.i {
            ignoredFiles := ignoredFiles + [p];
            return;
          }
          totalSize := totalSize + size;
          var fault := StoreFile(p, size);
          match fault {
            case NoFault =>
            case FileFault(m) =>
              scanExceptions := scanExceptions[AtFile(p) := m];
            case OverflowFault =>
              scanExceptions := map[GeneralError := OverflowMessage];
              stop := true;
          }
      }
    }

    /**
     * Validates, then walks the root file by file; the completion flag is
     * set only when the walk reaches its end.
     */
    method StartDuplicatesScan()
      modifies this, hasher
      ensures Abstract() == StartScan(old(Abstract()), fs, path, hasher.algo)
    {
      ghost var m0 := Abstract();
      ghost var c := CheckParams(fs.facts(path), blockSize, minSize);
      StartScanCases(m0, fs, path, hasher.algo);
      var ok := InitialParamsCheck();
      if !ok {
        return;
      }
      var walk := fs.walk(path);
      ghost var s0 := Ledger();
      ghost var hash := Hash();
      assert s0 == m0.scan;
      var i := 0;
      while i < |walk|
        invariant 0 <= i <= |walk|
        invariant blockSize == c.blockSize && minSize == c.minSize && hash == Hash()
        invariant doneSizeCalc == m0.done
        invariant Run(s0, walk[..i], c.minSize.i, hash) == Running(Ledger())
      {
        assert walk[..i + 1][..i] == walk[..i];
        var stop := ScanEntry(walk[i]);
        if stop {
          RunStaysAborted(s0, walk, i + 1, c.minSize.i, hash);
          assert Run(s0, walk, c.minSize.i, hash) == Aborted(Ledger());
          return;
        }
        i := i + 1;
      }
      assert walk[..i] == walk;
      doneSizeCalc := true;
    }

    /**
     * Runs the scan, then selects the groups to report: every digest list
     * of more than one file, each once.
     */
    method GetScanResults() returns (report: ScanReport)
      modifies this, hasher
      ensures Abstract() == StartScan(old(Abstract()), fs, path, hasher.algo)
      ensures forall g :: g in report.groups ==> IsReported(results, g)
      ensures forall g :: IsReported(results, g) ==> g in report.groups
      ensures forall i, j :: 0 <= i < j < |report.groups| ==> report.groups[i] != report.groups[j]
      ensures report.problems == scanExceptions && report.ignored == ignoredFiles
    {
      StartDuplicatesScan();
      var groups := CollectGroups(results);
      report := ScanReport(groups, scanExceptions, ignoredFiles);
    }
  }
}

=== FILE: files.dfy ===
/**
 * The environment the duplicate-detection engine runs against.
 *
 * The engine never sees the file system directly here: the directory walk,
 * the size lookups, the path checks and the file contents are inputs.
 */
module Files {
  /** A file system path, as the engine prints and stores it. */
  type Path = string

  /** One byte of file content. */
  type Byte = bv8

  /** A content digest in its printed (hexadecimal) form. */
  type Digest = string

  /**
   * One file produced by the directory walk, after its size lookup:
   * either the size was found, or the lookup raised with a message.
   */
  datatype WalkEntry =
    | Sized(path: Path, size: nat)
    | StatFailed(path: Path, message: string)

  /** What opening a file for reading gives: its bytes, or the error raised. */
  datatype FileContent =
    | Readable(data: seq<Byte>)
    | Unopenable(message: string)

  /** The three facts the validator asks about the scan root. */
  datatype RootFacts = RootFacts(pathExists: bool, isAbsolute: bool, isDir: bool)

  /**
   * A snapshot of the file system: the facts about a root, the walk below a
   * root (files in visiting order), and the content of each file.
   */
  datatype FileSystem = FileSystem(
    facts: Path -> RootFacts,
    walk: Path -> seq<WalkEntry>,
    content: Path -> FileContent)

  /** The paths of a walk, in visiting order. */
  function PathsOf(es: seq<WalkEntry>): (ps: seq<Path>)
    ensures |ps| == |es|
    ensures forall i :: 0 <= i < |es| ==> ps[i] == es[i].path
  {
    if es == [] then [] else PathsOf(es[..|es| - 1]) + [es[|es| - 1].path]
  }

  /** No path occurs twice. */
  predicate Distinct(ps: seq<Path>)
  {
    forall i, j :: 0 <= i < j < |ps| ==> ps[i] != ps[j]
  }
}

=== FILE: grouping.dfy ===
/**
 * What the digest lists hold over a whole scan: only counted files of the
 * list's size whose digest is the list's digest (soundness), in walk order
 * (order), and, when every counted file could be digested and the walk ran
 * to its end, every counted file that shares its size (completeness).
 */
module Grouping {
  import opened Wrappers
  import opened Files
  import opened Digesting
  import opened Buckets
  import opened WalkFacts

  // ---------------------------------------------------------------------
  // Soundness
  // ---------------------------------------------------------------------

  /** Every file of list `l` is a counted file of size `k` whose digest is `d`. */
  ghost predicate ListSound(l: seq<Path>, k: nat, d: Digest, c: seq<FileSize>, hash: Path -> HashOutcome)
  {
    forall x :: x in l ==> FileSize(x, k) in c && hash(x) == Digested(d)
  }

  ghost predicate GroupsSound(g: map<Digest, seq<Path>>, k: nat, c: seq<FileSize>, hash: Path -> HashOutcome)
  {
    forall d :: d in g ==> ListSound(g[d], k, d, c, hash)
  }

  /** A pending file is a counted file of its size; a digest map is sound. */
  ghost predicate BucketSound(b: Bucket, k: nat, c: seq<FileSize>, hash: Path -> HashOutcome)
  {
    match b
    case Pending(p) => FileSize(p, k) in c
    case Hashed(g) => GroupsSound(g, k, c, hash)
  }

  ghost predicate SoundInv(results: map<nat, Bucket>, c: seq<FileSize>, hash: Path -> HashOutcome)
  {
    forall k :: k in results ==> BucketSound(results[k], k, c, hash)
  }

  lemma BucketSoundExtends(b: Bucket, k: nat, c: seq<FileSize>, hash: Path -> HashOutcome, x: FileSize)
    requires BucketSound(b, k, c, hash)
    ensures BucketSound(b, k, c + [x], hash)
  {
    if b.Hashed? {
      forall d | d in b.groups ensures ListSound(b.groups[d], k, d, c + [x], hash) {
        assert ListSound(b.groups[d], k, d, c, hash);
      }
    }
  }

  lemma SoundInvExtends(results: map<nat, Bucket>, c: seq<FileSize>, hash: Path -> HashOutcome, x: FileSize)
    requires SoundInv(results, c, hash)
    ensures SoundInv(results, c + [x], hash)
  {
    forall k | k in results ensures BucketSound(results[k], k, c + [x], hash) {
      BucketSoundExtends(results[k], k, c, hash, x);
    }
  }

  lemma AppendSound(g: map<Digest, seq<Path>>, k: nat, d: Digest, p: Path, c: seq<FileSize>, hash: Path -> HashOutcome)
    requires GroupsSound(g, k, c, hash)
    requires FileSize(p, k) in c && hash(p) == Digested(d)
    ensures GroupsSound(Append(g, d, p), k, c, hash)
  {
    var g' := Append(g, d, p);
    forall d' | d' in g' ensures ListSound(g'[d'], k, d', c, hash) {
      if d' != d {
        assert ListSound(g[d'], k, d', c, hash);
      } else if d in g {
        assert ListSound(g[d], k, d, c, hash);
      }
    }
  }

  lemma StoreKeepsSound(t: ScanState, p: Path, size: nat, hash: Path -> HashOutcome, c: seq<FileSize>)
    requires SoundInv(t.results, c, hash)
    ensures SoundInv(Store(t, p, size, hash).0.results, c + [FileSize(p, size)], hash)
  {
    var x := FileSize(p, size);
    var c' := c + [x];
    SoundInvExtends(t.results, c, hash, x);
    assert x in c';
    var b := BucketOf(t, size);
    var nb := Stored(b, p, hash);
    match b {
      case None =>
      case Some(Pending(prev)) =>
        assert BucketSound(t.results[size], size, c, hash);
        assert FileSize(prev, size) in c';
        if hash(prev).Digested? {
          var first := Append(map[], hash(prev).digest, prev);
          AppendSound(map[], size, hash(prev).digest, prev, c', hash);
          if hash(p).Digested? {
            AppendSound(first, size, hash(p).digest, p, c', hash);
          }
        }
      case Some(Hashed(g)) =>
        assert BucketSound(t.results[size], size, c', hash);
        if hash(p).Digested? {
          AppendSound(g, size, hash(p).digest, p, c', hash);
        }
    }
    assert BucketSound(nb, size, c', hash);
  }

  // ---------------------------------------------------------------------
  // Order
  // ---------------------------------------------------------------------

  /** Every list of `g` keeps the order of `ns`. */
  ghost predicate GroupsOrdered(g: map<Digest, seq<Path>>, ns: seq<Path>)
  {
    forall d :: d in g ==> Subseq(g[d], ns)
  }

  ghost predicate OrderInv(results: map<nat, Bucket>, c: seq<FileSize>)
  {
    forall k :: k in results && results[k].Hashed? ==> GroupsOrdered(results[k].groups, Names(c))
  }

  lemma NamesAppend(c: seq<FileSize>, x: FileSize)
    ensures Names(c + [x]) == Names(c) + [x.path]
  {
    assert (c + [x])[..|c|] == c;
  }

  lemma GroupsOrderedExtends(g: map<Digest, seq<Path>>, ns: seq<Path>, p: Path)
    requires GroupsOrdered(g, ns)
    ensures GroupsOrdered(g, ns + [p])
  {
    forall d | d in g ensures Subseq(g[d], ns + [p]) {
      SubseqExtend(g[d], ns, p);
    }
  }

  lemma AppendOrdered(g: map<Digest, seq<Path>>, ns: seq<Path>, d: Digest, p: Path)
    requires GroupsOrdered(g, ns)
    ensures GroupsOrdered(Append(g, d, p), ns + [p])
  {
    var g' := Append(g, d, p);
    forall d' | d' in g' ensures Subseq(g'[d'], ns + [p]) {
      if d' != d {
        SubseqExtend(g[d'], ns, p);
      } else {
        SubseqAppend(if d in g then g[d] else [], ns, p);
      }
    }
  }

  lemma StoreKeepsOrder(t: ScanState, p: Path, size: nat, hash: Path -> HashOutcome, c: seq<FileSize>)
    requires SoundInv(t.results, c, hash) && OrderInv(t.results, c)
    ensures OrderInv(Store(t, p, size, hash).0.results, c + [FileSize(p, size)])
  {
    var x := FileSize(p, size);
    var ns := Names(c);
    NamesAppend(c, x);
    var r := Store(t, p, size, hash).0.results;
    forall k | k in r && r[k].Hashed? ensures GroupsOrdered(r[k].groups, ns + [p]) {
      if k != size {
        GroupsOrderedExtends(t.results[k].groups, ns, p);
      } else {
        match BucketOf(t, size) {
          case None =>
          case Some(Pending(prev)) =>
            assert BucketSound(t.results[size], size, c, hash);
            var i :| 0 <= i < |c| && c[i] == FileSize(prev, size);
            assert ns[i] == prev;
            SubseqSingleton(prev, ns);
            if hash(prev).Digested? {
              var first := Append(map[], hash(prev).digest, prev);
              assert first.Keys == {hash(prev).digest} && first[hash(prev).digest] == [prev];
              assert GroupsOrdered(first, ns);
              if hash(p).Digested? {
                AppendOrdered(first, ns, hash(p).digest, p);
              } else {
                GroupsOrderedExtends(first, ns, p);
              }
            }
          case Some(Hashed(g)) =>
            if hash(p).Digested? {
              AppendOrdered(g, ns, hash(p).digest, p);
            } else {
              GroupsOrderedExtends(g, ns, p);
            }
        }
      }
    }
  }

  // ---------------------------------------------------------------------
  // Completeness
  // ---------------------------------------------------------------------

  /**
   * Every counted file of size `k` can be digested. A size's bucket only
   * ever sees files of that size, so files of other sizes do not matter.
   */
  ghost predicate SizeDigests(c: seq<FileSize>, k: nat, hash: Path -> HashOutcome)
  {
    forall x :: x in c && x.size == k ==> hash(x.path).Digested?
  }

  /**
   * Counted file `x` is in the buckets: as the pending file of its size, or
   * in the list of its own digest.
   */
  ghost predicate Filed(results: map<nat, Bucket>, x: FileSize, hash: Path -> HashOutcome)
  {
    && x.size in results
    && match results[x.size]
       case Pending(q) => q == x.path
       case Hashed(g) =>
         hash(x.path).Digested? && hash(x.path).digest in g && x.path in g[hash(x.path).digest]
  }

  /** Every counted file of size `k` is filed. */
  ghost predicate CompleteInv(results: map<nat, Bucket>, c: seq<FileSize>, k: nat, hash: Path -> HashOutcome)
  {
    forall x :: x in c && x.size == k ==> Filed(results, x, hash)
  }

  lemma AppendKeepsMembers(g: map<Digest, seq<Path>>, d: Digest, p: Path, d': Digest, y: Path)
    requires d' in g && y in g[d']
    ensures d' in Append(g, d, p) && y in Append(g, d, p)[d']
  {
  }

  /** The file just stored is filed. */
  lemma StoreFilesNew(t: ScanState, p: Path, size: nat, hash: Path -> HashOutcome, c: seq<FileSize>)
    requires SoundInv(t.results, c, hash) && SizeDigests(c + [FileSize(p, size)], size, hash)
    ensures Filed(Store(t, p, size, hash).0.results, FileSize(p, size), hash)
  {
    assert FileSize(p, size) in c + [FileSize(p, size)];
    match BucketOf(t, size) {
      case None =>
      case Some(Pending(prev)) =>
        assert BucketSound(t.results[size], size, c, hash);
        assert FileSize(prev, size) in c + [FileSize(p, size)];
      case Some(Hashed(g)) =>
    }
  }

  /** A file filed before is still filed after another file is stored. */
  lemma StoreKeepsFiled(t: ScanState, p: Path, size: nat, hash: Path -> HashOutcome, c: seq<FileSize>, y: FileSize)
    requires SoundInv(t.results, c, hash) && SizeDigests(c + [FileSize(p, size)], y.size, hash)
    requires y in c && Filed(t.results, y, hash)
    ensures Filed(Store(t, p, size, hash).0.results, y, hash)
  {
    if y.size == size {
      var c' := c + [FileSize(p, size)];
      assert y in c';
      match t.results[size] {
        case Pending(prev) =>
          assert prev == y.path;
          var first := Append(map[], hash(prev).digest, prev);
          assert FileSize(p, size) in c';
          AppendKeepsMembers(first, hash(p).digest, p, hash(prev).digest, prev);
        case Hashed(g) =>
          assert FileSize(p, size) in c';
          AppendKeepsMembers(g, hash(p).digest, p, hash(y.path).digest, y.path);
      }
    }
  }

  lemma StoreKeepsComplete(t: ScanState, p: Path, size: nat, hash: Path -> HashOutcome, c: seq<FileSize>, k: nat)
    requires SoundInv(t.results, c, hash) && CompleteInv(t.results, c, k, hash)
    requires SizeDigests(c + [FileSize(p, size)], k, hash)
    ensures CompleteInv(Store(t, p, size, hash).0.results, c + [FileSize(p, size)], k, hash)
  {
    var r := Store(t, p, size, hash).0.results;
    forall y | y in c + [FileSize(p, size)] && y.size == k ensures Filed(r, y, hash) {
      if y in c {
        StoreKeepsFiled(t, p, size, hash, c, y);
      } else {
        StoreFilesNew(t, p, size, hash, c);
      }
    }
  }

  // ---------------------------------------------------------------------
  // Over a walk
  // ---------------------------------------------------------------------

  /** The counted files of a walk grow by the walk's last file when it is counted. */
  lemma CountedLast(es: seq<WalkEntry>, minSize: int)
    requires es != []
    ensures var e := es[|es| - 1];
      Counted(es, minSize) == Counted(es[..|es| - 1], minSize) + if IsCounted(e, minSize) then [FileSize(e.path, e.size)] else []
  {
  }

  lemma StepKeepsSoundOrder(t: ScanState, e: WalkEntry, minSize: int, hash: Path -> HashOutcome, c: seq<FileSize>)
    requires SoundInv(t.results, c, hash) && OrderInv(t.results, c)
    ensures var c' := c + if IsCounted(e, minSize) then [FileSize(e.path, e.size)] else [];
      var r := Step(t, e, minSize, hash).state.results;
      SoundInv(r, c', hash) && OrderInv(r, c')
  {
    StepParts(t, e, minSize, hash);
    if IsCounted(e, minSize) {
      var t' := t.(total := t.total + e.size);
      StoreKeepsSound(t', e.path, e.size, hash, c);
      StoreKeepsOrder(t', e.path, e.size, hash, c);
    } else {
      assert c + [] == c;
    }
  }

  /** Soundness and order hold after any walk, finished or stopped. */
  lemma {:induction false} RunKeepsSoundOrder(es: seq<WalkEntry>, minSize: int, hash: Path -> HashOutcome)
    ensures var r := Run(Initial(), es, minSize, hash).state.results;
      SoundInv(r, Counted(es, minSize), hash) && OrderInv(r, Counted(es, minSize))
    decreases |es|
  {
    if es != [] {
      var front, e := es[..|es| - 1], es[|es| - 1];
      RunKeepsSoundOrder(front, minSize, hash);
      CountedLast(es, minSize);
      var o := Run(Initial(), front, minSize, hash);
      var c := Counted(front, minSize);
      if o.Running? {
        StepKeepsSoundOrder(o.state, e, minSize, hash, c);
      } else if IsCounted(e, minSize) {
        var x := FileSize(e.path, e.size);
        SoundInvExtends(o.state.results, c, hash, x);
        NamesAppend(c, x);
        forall k | k in o.state.results && o.state.results[k].Hashed?
          ensures GroupsOrdered(o.state.results[k].groups, Names(c + [x]))
        {
          GroupsOrderedExtends(o.state.results[k].groups, Names(c), e.path);
        }
      } else {
        assert c + [] == c;
      }
    }
  }

  /** A walk that ran to its end had every prefix run to its end too. */
  lemma RunningFront(es: seq<WalkEntry>, minSize: int, hash: Path -> HashOutcome)
    requires es != [] && Run(Initial(), es, minSize, hash).Running?
    ensures Run(Initial(), es[..|es| - 1], minSize, hash).Running?
  {
  }

  /**
   * When the walk ran to its end and every counted file of size `k` could
   * be digested, every counted file of size `k` is filed, whatever
   * happened to files of other sizes.
   */
  lemma {:induction false} RunComplete(es: seq<WalkEntry>, minSize: int, hash: Path -> HashOutcome, k: nat)
    requires Run(Initial(), es, minSize, hash).Running?
    requires SizeDigests(Counted(es, minSize), k, hash)
    ensures CompleteInv(Run(Initial(), es, minSize, hash).state.results, Counted(es, minSize), k, hash)
    decreases |es|
  {
    if es != [] {
      var front, e := es[..|es| - 1], es[|es| - 1];
      RunningFront(es, minSize, hash);
      CountedLast(es, minSize);
      var c := Counted(front, minSize);
      assert SizeDigests(c, k, hash) by {
        forall x | x in c && x.size == k ensures hash(x.path).Digested? {
          assert x in Counted(es, minSize);
        }
      }
      RunComplete(front, minSize, hash, k);
      RunKeepsSoundOrder(front, minSize, hash);
      var t := Run(Initial(), front, minSize, hash).state;
      StepParts(t, e, minSize, hash);
      if IsCounted(e, minSize) {
        StoreKeepsComplete(t.(total := t.total + e.size), e.path, e.size, hash, c, k);
      } else {
        assert c + [] == c;
      }
    }
  }
}

=== FILE: growth.dfy ===
/**
 * The buckets only grow during a scan: a size once seen keeps a bucket, a
 * pending file is only ever replaced by a digest map, and a digest map
 * keeps every digest and every list, lists growing only at their end.
 */
module Growth {
  import opened Files
  import opened Digesting
  import opened Buckets

  /** Every list of `g` is a prefix of the list of the same digest in `g'`. */
  ghost predicate ListsGrow(g: map<Digest, seq<Path>>, g': map<Digest, seq<Path>>)
  {
    forall d :: d in g ==> d in g' && g[d] <= g'[d]
  }

  /** `b'` is what `b` may become: the same pending file, or a digest map extending `b`'s. */
  ghost predicate BucketGrows(b: Bucket, b': Bucket)
  {
    match b
    case Pending(p) => b' == b || b'.Hashed?
    case Hashed(g) => b'.Hashed? && ListsGrow(g, b'.groups)
  }

  ghost predicate Grows(r: map<nat, Bucket>, r': map<nat, Bucket>)
  {
    forall k :: k in r ==> k in r' && BucketGrows(r[k], r'[k])
  }

  lemma GrowsTransitive(a: map<nat, Bucket>, b: map<nat, Bucket>, c: map<nat, Bucket>)
    requires Grows(a, b) && Grows(b, c)
    ensures Grows(a, c)
  {
    forall k | k in a ensures k in c && BucketGrows(a[k], c[k]) {
      if a[k].Hashed? {
        assert b[k].Hashed? && ListsGrow(a[k].groups, b[k].groups);
        assert c[k].Hashed? && ListsGrow(b[k].groups, c[k].groups);
        forall d | d in a[k].groups ensures d in c[k].groups && a[k].groups[d] <= c[k].groups[d] {
          assert a[k].groups[d] <= b[k].groups[d];
        }
      }
    }
  }

  lemma StoreGrows(t: ScanState, p: Path, size: nat, hash: Path -> HashOutcome)
    ensures Grows(t.results, Store(t, p, size, hash).0.results)
  {
    var r := Store(t, p, size, hash).0.results;
    if size in t.results && t.results[size].Hashed? {
      var g := t.results[size].groups;
      assert ListsGrow(g, r[size].groups);
    }
  }

  /** One walked file never shrinks the buckets. */
  lemma StepGrows(t: ScanState, e: WalkEntry, minSize: int, hash: Path -> HashOutcome)
    ensures Grows(t.results, Step(t, e, minSize, hash).state.results)
  {
    StepParts(t, e, minSize, hash);
    if e.Sized? && e.size >= minSize {
      StoreGrows(t.(total := t.total + e.size), e.path, e.size, hash);
    } else {
      assert Grows(t.results, t.results);
    }
  }

  /** A whole walk never shrinks the buckets, whether it completes or stops. */
  lemma {:induction false} RunGrows(s: ScanState, es: seq<WalkEntry>, minSize: int, hash: Path -> HashOutcome)
    ensures Grows(s.results, Run(s, es, minSize, hash).state.results)
    decreases |es|
  {
    if es == [] {
      assert Grows(s.results, s.results);
    } else {
      var front := es[..|es| - 1];
      RunGrows(s, front, minSize, hash);
      var o := Run(s, front, minSize, hash);
      if o.Running? {
        StepGrows(o.state, es[|es| - 1], minSize, hash);
        GrowsTransitive(s.results, o.state.results, Run(s, es, minSize, hash).state.results);
      }
    }
  }
}

=== FILE: hash_once.dfy ===
/**
 * Over a whole scan no file is handed to the digest routine twice, provided
 * the walk lists every file once.
 */
module HashOnce {
  import opened Files
  import opened Digesting
  import opened Buckets

  /**
   * What keeps digests unrepeated: the digested paths and the bare paths of
   * pending sizes come from the walk so far, no pending path has been
   * digested, and no path is pending under two sizes.
   */
  ghost predicate HashOnceInv(t: ScanState, ps: seq<Path>)
  {
    && Distinct(t.hashed)
    && (forall x :: x in t.hashed ==> x in ps)
    && (forall k :: k in t.results && t.results[k].Pending? ==>
          t.results[k].path in ps && t.results[k].path !in t.hashed)
    && (forall k1, k2 ::
          (k1 in t.results && k2 in t.results && k1 != k2 && t.results[k1].Pending? && t.results[k2].Pending?) ==>
          t.results[k1].path != t.results[k2].path)
  }

  lemma DistinctAppend(s: seq<Path>, x: Path)
    requires Distinct(s) && x !in s
    ensures Distinct(s + [x])
  {
    forall i, j | 0 <= i < j < |s| + 1 ensures (s + [x])[i] != (s + [x])[j] {
      if j == |s| {
        assert s[i] in s;
      }
    }
  }

  lemma StoreKeepsHashOnce(t: ScanState, p: Path, size: nat, hash: Path -> HashOutcome, ps: seq<Path>)
    requires HashOnceInv(t, ps) && p !in ps
    ensures HashOnceInv(Store(t, p, size, hash).0, ps + [p])
  {
    var r := Store(t, p, size, hash).0;
    assert p !in t.hashed;
    if size !in t.results {
      assert r.hashed == t.hashed;
    } else {
      match t.results[size]
      case Pending(prev) =>
        assert prev in ps && prev !in t.hashed && prev != p;
        DistinctAppend(t.hashed, prev);
        if hash(prev).Digested? {
          assert p !in t.hashed + [prev];
          DistinctAppend(t.hashed + [prev], p);
          assert r.hashed == t.hashed + [prev] + [p];
        } else {
          assert r.hashed == t.hashed + [prev];
        }
      case Hashed(g) =>
        DistinctAppend(t.hashed, p);
    }
  }

  lemma StepKeepsHashOnce(t: ScanState, e: WalkEntry, minSize: int, hash: Path -> HashOutcome, ps: seq<Path>)
    requires HashOnceInv(t, ps) && e.path !in ps
    ensures HashOnceInv(Step(t, e, minSize, hash).state, ps + [e.path])
  {
    StepParts(t, e, minSize, hash);
    if e.Sized? && e.size >= minSize {
      StoreKeepsHashOnce(t.(total := t.total + e.size), e.path, e.size, hash, ps);
    }
  }

  lemma {:induction false} RunKeepsHashOnce(es: seq<WalkEntry>, minSize: int, hash: Path -> HashOutcome)
    requires Distinct(PathsOf(es))
    ensures HashOnceInv(Run(Initial(), es, minSize, hash).state, PathsOf(es))
    decreases |es|
  {
    if es != [] {
      var front, e := es[..|es| - 1], es[|es| - 1];
      assert PathsOf(es) == PathsOf(front) + [e.path];
      assert Distinct(PathsOf(front));
      assert e.path !in PathsOf(front);
      RunKeepsHashOnce(front, minSize, hash);
      if Run(Initial(), front, minSize, hash).Running? {
        StepKeepsHashOnce(Run(Initial(), front, minSize, hash).state, e, minSize, hash, PathsOf(front));
      }
    }
  }

  /**
   * No file is digested twice in a scan, and every digested file is one
   * the walk produced.
   */
  lemma HashedAtMostOnce(es: seq<WalkEntry>, minSize: int, hash: Path -> HashOutcome)
    requires Distinct(PathsOf(es))
    ensures Distinct(Run(Initial(), es, minSize, hash).state.hashed)
    ensures forall x :: x in Run(Initial(), es, minSize, hash).state.hashed ==> x in PathsOf(es)
  {
    RunKeepsHashOnce(es, minSize, hash);
  }
}

=== FILE: outcome.dfy ===
/**
 * What one scan of a freshly constructed engine leaves behind, stated
 * against the walk of the root: the validator's early exit, the completion
 * flag, the total, the ignored list, the fatal overflow, and a small
 * worked example.
 */
module Outcome {
  import opened Wrappers
  import opened Files
  import opened Conversion
  import opened Validation
  import opened Digesting
  import opened Buckets
  import opened WalkFacts
  import opened ScanProperties
  import opened HashOnce
  import opened SharedSize
  import opened Report

  /**
   * Invalid parameters: exactly one general problem is recorded, nothing
   * is walked, the total stays 0 and the scan is not marked done.
   */
  lemma InvalidParamsStopEarly(blockSize: PyValue, minSize: PyValue, fs: FileSystem, root: Path, algo: seq<Byte> -> Digest)
    requires CheckParams(fs.facts(root), blockSize, minSize).problem.Some?
    ensures var r := StartScan(Fresh(blockSize, minSize), fs, root, algo);
      && r.scan == Initial().(errors := map[GeneralProblem := CheckParams(fs.facts(root), blockSize, minSize).problem.value])
      && r.scan.total == 0
      && !r.done
  {
  }

  /** A root that does not exist is refused with the missing-path problem. */
  lemma MissingRootRefused(blockSize: PyValue, minSize: PyValue, fs: FileSystem, root: Path, algo: seq<Byte> -> Digest)
    requires !fs.facts(root).pathExists
    ensures var r := StartScan(Fresh(blockSize, minSize), fs, root, algo);
      r.scan.errors == map[GeneralProblem := PathMissing] && r.scan.total == 0 && r.scan.hashed == [] && !r.done
  {
  }

  /** Valid parameters: the scan is the walk itself, with both sizes converted. */
  lemma ValidScanState(blockSize: PyValue, minSize: PyValue, fs: FileSystem, root: Path, algo: seq<Byte> -> Digest)
    requires fs.facts(root) == RootFacts(true, true, true)
    requires PositiveInt(blockSize) && NonNegativeInt(minSize)
    ensures var o := Run(Initial(), fs.walk(root), IntOf(minSize).value, HashOf(fs.content, IntOf(blockSize).value, algo));
      StartScan(Fresh(blockSize, minSize), fs, root, algo) ==
      EngineState(Int(IntOf(blockSize).value), Int(IntOf(minSize).value), o.state, o.Running?)
  {
    var c := CheckParams(fs.facts(root), blockSize, minSize);
    assert c.problem.None?;
    assert c.blockSize == Int(IntOf(blockSize).value) && c.minSize == Int(IntOf(minSize).value);
  }

  /**
   * Valid parameters: the scan is marked done exactly when the walk ran to
   * its end. Then the total is the sum of the counted sizes and the
   * ignored list is the undersized files in walk order; otherwise an
   * overflow stopped it and the ledger holds the one general error.
   */
  lemma ValidScan(blockSize: PyValue, minSize: PyValue, fs: FileSystem, root: Path, algo: seq<Byte> -> Digest)
    requires fs.facts(root) == RootFacts(true, true, true)
    requires PositiveInt(blockSize) && NonNegativeInt(minSize)
    ensures var r := StartScan(Fresh(blockSize, minSize), fs, root, algo);
      var walk, min := fs.walk(root), IntOf(minSize).value;
      var hash := HashOf(fs.content, IntOf(blockSize).value, algo);
      && r.blockSize == Int(IntOf(blockSize).value) && r.minSize == Int(min)
      && r.scan == Run(Initial(), walk, min, hash).state
      && (r.done <==> Run(Initial(), walk, min, hash).Running?)
      && (r.done ==> r.scan.total == SumSizes(Counted(walk, min)) && r.scan.ignored == IgnoredPaths(walk, min))
      && (!r.done ==> r.scan.errors == map[GeneralError := OverflowMessage])
  {
    var walk, min := fs.walk(root), IntOf(minSize).value;
    var hash := HashOf(fs.content, IntOf(blockSize).value, algo);
    ValidScanState(blockSize, minSize, fs, root, algo);
    var o := Run(Initial(), walk, min, hash);
    if o.Running? {
      RunTotal(Initial(), walk, min, hash);
      RunIgnored(Initial(), walk, min, hash);
    }
  }

  /**
   * In any scan of a walk that lists each path once, no file is digested
   * twice, and every digested file shares its size with another counted
   * file.
   */
  lemma ScanDigestsSparingly(blockSize: PyValue, minSize: PyValue, fs: FileSystem, root: Path, algo: seq<Byte> -> Digest)
    requires Distinct(PathsOf(fs.walk(root)))
    ensures var r := StartScan(Fresh(blockSize, minSize), fs, root, algo);
      && Distinct(r.scan.hashed)
      && (forall h :: h in r.scan.hashed ==> SharesSize(Counted(fs.walk(root), IntOf(minSize).value), h))
  {
    var c := CheckParams(fs.facts(root), blockSize, minSize);
    if c.problem.None? {
      var walk, min := fs.walk(root), IntOf(minSize).value;
      var hash := HashOf(fs.content, IntOf(blockSize).value, algo);
      HashedAtMostOnce(walk, min, hash);
      HashedOnlyWhenSizeShared(walk, min, hash);
    }
  }

  /** The four files of the worked example, in walk order. */
  function SmallWalk(): seq<WalkEntry>
  {
    [Sized("a.txt", 5), Sized("b.txt", 5), Sized("c.txt", 5), Sized("d.txt", 3)]
  }

  /** The worked example after its first two files: one digested size holding the equal pair. */
  lemma SmallTreePair(hash: Path -> HashOutcome, same: Digest)
    requires hash("a.txt") == Digested(same) && hash("b.txt") == Digested(same)
    ensures Run(Initial(), SmallWalk()[..2], 4, hash) ==
      Running(ScanState(10, map[5 := Hashed(map[same := ["a.txt", "b.txt"]])], map[], [], ["a.txt", "b.txt"]))
  {
    var es := SmallWalk()[..2];
    var s1 := Initial().(total := 5, results := map[5 := Pending("a.txt")]);
    assert es[..1][..0] == [];
    assert Run(Initial(), es[..1], 4, hash) == Running(s1);
    SecondFileOfSize(s1, "a.txt", "b.txt", 5, 4, hash);
    assert es[..|es| - 1] == es[..1];
  }

  /** The worked example's third file opens a digest list of its own. */
  lemma SmallTreeThirdStep(hash: Path -> HashOutcome, same: Digest, other: Digest)
    requires same != other && hash("c.txt") == Digested(other)
    ensures var g2 := map[same := ["a.txt", "b.txt"]];
      Step(ScanState(10, map[5 := Hashed(g2)], map[], [], ["a.txt", "b.txt"]), Sized("c.txt", 5), 4, hash) ==
      Running(ScanState(15, map[5 := Hashed(g2[other := ["c.txt"]])], map[], [], ["a.txt", "b.txt", "c.txt"]))
  {
    var g2 := map[same := ["a.txt", "b.txt"]];
    assert other !in g2 && [] + ["c.txt"] == ["c.txt"];
    assert Append(g2, other, "c.txt") == g2[other := ["c.txt"]];
  }

  /** The worked example after its three 5-byte files: the third file has a digest list of its own. */
  lemma SmallTreeTriple(hash: Path -> HashOutcome, same: Digest, other: Digest)
    requires same != other
    requires hash("a.txt") == Digested(same) && hash("b.txt") == Digested(same) && hash("c.txt") == Digested(other)
    ensures Run(Initial(), SmallWalk()[..3], 4, hash) ==
      Running(ScanState(15, map[5 := Hashed(map[same := ["a.txt", "b.txt"], other := ["c.txt"]])], map[],
                        [], ["a.txt", "b.txt", "c.txt"]))
  {
    var es := SmallWalk()[..3];
    SmallTreePair(hash, same);
    SmallTreeThirdStep(hash, same, other);
    assert map[same := ["a.txt", "b.txt"]][other := ["c.txt"]] == map[same := ["a.txt", "b.txt"], other := ["c.txt"]];
    assert es[..|es| - 1] == SmallWalk()[..2] && es[2] == Sized("c.txt", 5);
  }

  /** The ledger the worked example's walk ends in. */
  lemma SmallTreeRun(hash: Path -> HashOutcome, same: Digest, other: Digest)
    requires same != other
    requires hash("a.txt") == Digested(same) && hash("b.txt") == Digested(same) && hash("c.txt") == Digested(other)
    ensures Run(Initial(), SmallWalk(), 4, hash) ==
      Running(ScanState(15, map[5 := Hashed(map[same := ["a.txt", "b.txt"], other := ["c.txt"]])], map[],
                        ["d.txt"], ["a.txt", "b.txt", "c.txt"]))
  {
    var es := SmallWalk();
    SmallTreeTriple(hash, same, other);
    assert es[..|es| - 1] == es[..3];
  }

  /**
   * A worked example: three 5-byte files, two of them with equal content,
   * and one 3-byte file, with a minimum size of 4. The equal pair is the
   * only reported group, in walk order; the 3-byte file is ignored; the
   * total is 15 and nothing went wrong.
   */
  lemma SmallTree(hash: Path -> HashOutcome, same: Digest, other: Digest)
    requires same != other
    requires hash("a.txt") == Digested(same) && hash("b.txt") == Digested(same) && hash("c.txt") == Digested(other)
    ensures var o := Run(Initial(), SmallWalk(), 4, hash);
      && o.Running?
      && o.state.total == 15
      && o.state.errors == map[]
      && o.state.ignored == ["d.txt"]
      && o.state.hashed == ["a.txt", "b.txt", "c.txt"]
      && (forall g :: IsReported(o.state.results, g) <==> g == DuplicateGroup(5, same, ["a.txt", "b.txt"]))
  {
    SmallTreeRun(hash, same, other);
    var g3 := map[same := ["a.txt", "b.txt"], other := ["c.txt"]];
    forall g ensures IsReported(map[5 := Hashed(g3)], g) <==> g == DuplicateGroup(5, same, ["a.txt", "b.txt"]) {
      if IsReported(map[5 := Hashed(g3)], g) {
        assert g.size == 5 && g.digest in g3;
      }
    }
  }

  /** A walk whose first file of size 5 cannot be read, followed by two equal files of that size. */
  function UnreadableFirstWalk(): seq<WalkEntry>
  {
    [Sized("z.txt", 5), Sized("x.txt", 5), Sized("y.txt", 5)]
  }

  /**
   * The second file of the size arrives while the pending file is
   * unreadable: the pending file's read error is recorded under the second
   * file's path, the second file is never digested, and the size keeps an
   * empty digest map.
   */
  lemma UnreadablePendingPair(hash: Path -> HashOutcome, m: string)
    requires hash("z.txt") == ReadFailed(m)
    ensures Run(Initial(), UnreadableFirstWalk()[..2], 4, hash) ==
      Running(ScanState(10, map[5 := Hashed(map[])], map[AtFile("x.txt") := m], [], ["z.txt"]))
  {
    var es := UnreadableFirstWalk()[..2];
    var s1 := Initial().(total := 5, results := map[5 := Pending("z.txt")]);
    assert es[..1][..0] == [];
    assert Run(Initial(), es[..1], 4, hash) == Running(s1);
    SecondFileOfSize(s1, "z.txt", "x.txt", 5, 4, hash);
    assert es[..|es| - 1] == es[..1];
  }

  /**
   * An unreadable pending file hides a pair of equal files: the file that
   * arrives second is dropped, so when the third file equals it, neither is
   * reported. Only the third file is listed, the error sits under the
   * second file's path, and the unreadable file has no entry of its own.
   */
  lemma UnreadablePendingHidesPair(hash: Path -> HashOutcome, m: string, d: Digest)
    requires hash("z.txt") == ReadFailed(m)
    requires hash("x.txt") == Digested(d) && hash("y.txt") == Digested(d)
    ensures var o := Run(Initial(), UnreadableFirstWalk(), 4, hash);
      && o == Running(ScanState(15, map[5 := Hashed(map[d := ["y.txt"]])], map[AtFile("x.txt") := m],
                                [], ["z.txt", "y.txt"]))
      && (forall g :: !IsReported(o.state.results, g))
  {
    var es := UnreadableFirstWalk();
    UnreadablePendingPair(hash, m);
    assert es[..|es| - 1] == UnreadableFirstWalk()[..2];
    var none: map<Digest, seq<Path>> := map[];
    assert d !in none && [] + ["y.txt"] == ["y.txt"];
    assert Append(none, d, "y.txt") == map[d := ["y.txt"]];
  }
}

=== FILE: report.dfy ===
/**
 * Which groups the engine reports once a scan is over: every digest list of
 * a digested size that holds more than one file. The report's text is not
 * modelled, only the selection of groups.
 */
module Report {
  import opened Files
  import opened Buckets

  /** A reported group: the files of one size that share one digest. */
  datatype DuplicateGroup = DuplicateGroup(size: nat, digest: Digest, members: seq<Path>)

  /** `g` is one of the groups `results` holds with at least two files. */
  ghost predicate IsReported(results: map<nat, Bucket>, g: DuplicateGroup)
  {
    && g.size in results
    && results[g.size].Hashed?
    && g.digest in results[g.size].groups
    && g.members == results[g.size].groups[g.digest]
    && |g.members| > 1
  }

  /** What the scan results hand back besides the groups: the ledger and the ignored files. */
  datatype ScanReport = ScanReport(groups: seq<DuplicateGroup>, problems: map<ErrorKey, string>, ignored: seq<Path>)

  /**
   * Walks every size and, inside a digested size, every digest, keeping the
   * lists longer than one. Each such list is reported exactly once; a
   * pending size and a single-file list never are.
   */
  method CollectGroups(results: map<nat, Bucket>) returns (groups: seq<DuplicateGroup>)
    ensures forall g :: g in groups ==> IsReported(results, g)
    ensures forall s, d ::
      (s in results && results[s].Hashed? && d in results[s].groups && |results[s].groups[d]| > 1) ==>
      DuplicateGroup(s, d, results[s].groups[d]) in groups
    ensures forall i, j :: 0 <= i < j < |groups| ==>
      groups[i].size != groups[j].size || groups[i].digest != groups[j].digest
  {
    groups := [];
    var sizes := results.Keys;
    while sizes != {}
      invariant sizes <= results.Keys
      invariant forall g :: g in groups ==> IsReported(results, g) && g.size !in sizes
      invariant forall s, d ::
        (s in results && s !in sizes && results[s].Hashed? && d in results[s].groups && |results[s].groups[d]| > 1) ==>
        DuplicateGroup(s, d, results[s].groups[d]) in groups
      invariant forall i, j :: 0 <= i < j < |groups| ==>
        groups[i].size != groups[j].size || groups[i].digest != groups[j].digest
      decreases sizes
    {
      var s :| s in sizes;
      match results[s] {
        case Pending(_) =>
        case Hashed(g) =>
        var digests := g.Keys;
        while digests != {}
          invariant digests <= g.Keys
          invariant forall x :: x in groups ==>
            IsReported(results, x) && (x.size !in sizes || (x.size == s && x.digest !in digests))
          invariant forall s', d ::
            (s' in results && s' !in sizes && results[s'].Hashed? && d in results[s'].groups && |results[s'].groups[d]| > 1) ==>
            DuplicateGroup(s', d, results[s'].groups[d]) in groups
          invariant forall d :: d in g && d !in digests && |g[d]| > 1 ==> DuplicateGroup(s, d, g[d]) in groups
          invariant forall i, j :: 0 <= i < j < |groups| ==>
            groups[i].size != groups[j].size || groups[i].digest != groups[j].digest
          decreases digests
        {
          var d :| d in digests;
          if |g[d]| > 1 {
            groups := groups + [DuplicateGroup(s, d, g[d])];
          }
          digests := digests - {d};
        }
      }
      sizes := sizes - {s};
    }
  }
}

=== FILE: scan_properties.dfy ===
/**
 * Properties of the scan specification: what one walked file does to the
 * buckets and the ledger, and what a whole walk guarantees.
 */
module ScanProperties {
  import opened Wrappers
  import opened Files
  import opened Digesting
  import opened Buckets
  import opened WalkFacts

  // ---------------------------------------------------------------------
  // One walked file
  // ---------------------------------------------------------------------

  /** The first file of a size is kept as a bare path and nothing is digested. */
  lemma FirstFileOfSize(s: ScanState, p: Path, size: nat, minSize: int, hash: Path -> HashOutcome)
    requires size >= minSize && size !in s.results
    ensures var r := Step(s, Sized(p, size), minSize, hash);
      && r.Running?
      && r.state.results == s.results[size := Pending(p)]
      && r.state.hashed == s.hashed
      && r.state.total == s.total + size
      && r.state.errors == s.errors && r.state.ignored == s.ignored
  {
  }

  /**
   * The second file of a size digests the first file, then itself, each
   * once, and seeds the digest map with the first file before the second.
   * A failure on the first digest leaves the bucket an empty digest map and
   * is recorded against the second file.
   */
  lemma SecondFileOfSize(s: ScanState, prev: Path, p: Path, size: nat, minSize: int, hash: Path -> HashOutcome)
    requires size >= minSize && size in s.results && s.results[size] == Pending(prev)
    ensures var r := Step(s, Sized(p, size), minSize, hash);
      && r.state.total == s.total + size
      && r.state.hashed == s.hashed + (if hash(prev).Digested? then [prev, p] else [prev])
      && (hash(prev).Digested? && hash(p).Digested? ==>
            var d1, d2 := hash(prev).digest, hash(p).digest;
            && r == Running(r.state)
            && r.state.results[size] == Hashed(if d1 == d2 then map[d1 := [prev, p]] else map[d1 := [prev], d2 := [p]]))
      && (hash(prev).Digested? && hash(p).ReadFailed? ==>
            r == Running(r.state) && r.state.results[size] == Hashed(map[hash(prev).digest := [prev]])
            && r.state.errors == s.errors[AtFile(p) := hash(p).message])
      && (hash(prev).ReadFailed? ==>
            r == Running(r.state) && r.state.results[size] == Hashed(map[])
            && r.state.errors == s.errors[AtFile(p) := hash(prev).message])
  {
    if hash(prev).Digested? {
      var first := Append(map[], hash(prev).digest, prev);
      assert first.Keys == {hash(prev).digest} && first[hash(prev).digest] == [prev];
      assert first == map[hash(prev).digest := [prev]];
    }
    if hash(prev).Digested? && hash(p).Digested? {
      var d1, d2 := hash(prev).digest, hash(p).digest;
      var first := Append(map[], d1, prev);
      assert first.Keys == {d1} && first[d1] == [prev];
      assert first == map[d1 := [prev]];
      var g := Append(first, d2, p);
      if d1 == d2 {
        assert g.Keys == {d1} && g[d1] == [prev, p];
        assert g == map[d1 := [prev, p]];
      } else {
        assert g.Keys == {d1, d2} && g[d1] == [prev] && g[d2] == [p];
        assert g == map[d1 := [prev], d2 := [p]];
      }
    }
  }

  /**
   * A later file of a digested size is digested once and appended at the
   * end of its digest's list, created if the digest is new; every other
   * list and every other size stays as it was.
   */
  lemma LaterFileOfSize(s: ScanState, g: map<Digest, seq<Path>>, p: Path, size: nat, minSize: int, hash: Path -> HashOutcome)
    requires size >= minSize && size in s.results && s.results[size] == Hashed(g)
    ensures var r := Step(s, Sized(p, size), minSize, hash);
      && r.state.total == s.total + size
      && r.state.hashed == s.hashed + [p]
      && (forall k :: k in s.results && k != size ==> k in r.state.results && r.state.results[k] == s.results[k])
      && (hash(p).Digested? ==>
            var d := hash(p).digest;
            && r.Running?
            && r.state.results[size].Hashed?
            && var g' := r.state.results[size].groups;
            && g'.Keys == g.Keys + {d}
            && g'[d] == (if d in g then g[d] else []) + [p]
            && (forall d' :: d' in g && d' != d ==> g'[d'] == g[d']))
  {
  }

  /**
   * A file whose digest fails at a digested size still adds its size to the
   * total; the failure is recorded against it and the bucket is unchanged.
   */
  lemma UnreadableFileCounted(s: ScanState, g: map<Digest, seq<Path>>, p: Path, size: nat, minSize: int, hash: Path -> HashOutcome)
    requires size >= minSize && size in s.results && s.results[size] == Hashed(g) && hash(p).ReadFailed?
    ensures Step(s, Sized(p, size), minSize, hash) ==
      Running(s.(total := s.total + size, hashed := s.hashed + [p], errors := s.errors[AtFile(p) := hash(p).message]))
  {
    assert s.results[size := Hashed(g)] == s.results;
  }

  /**
   * A per-file exception is recorded against the current path and the walk
   * goes on; an overflow replaces the whole ledger with one general error
   * and stops it. Nothing else stops the walk.
   */
  lemma FaultsInStep(s: ScanState, e: WalkEntry, minSize: int, hash: Path -> HashOutcome)
    ensures var r := Step(s, e, minSize, hash);
      && (r.Aborted? <==>
            IsCounted(e, minSize) && Store(s.(total := s.total + e.size), e.path, e.size, hash).1 == OverflowFault)
      && (r.Aborted? ==> r.state.errors == map[GeneralError := OverflowMessage])
      && (r.Running? ==>
            forall k :: k in s.errors && k != AtFile(e.path) ==> k in r.state.errors && r.state.errors[k] == s.errors[k])
      // the only entry a running step writes is the one under the current path
      && (r.Running? ==>
            var f := if e.Sized? then Store(s.(total := s.total + e.size), e.path, e.size, hash).1 else NoFault;
            r.state.errors ==
              if e.StatFailed? then s.errors[AtFile(e.path) := e.message]
              else if IsCounted(e, minSize) && f.FileFault? then s.errors[AtFile(e.path) := f.message]
              else s.errors)
  {
  }

  /** A per-file fault raised while storing is the read error of a path the store digested. */
  lemma FileFaultDigested(b: Option<Bucket>, p: Path, hash: Path -> HashOutcome, m: string)
    requires StoreFault(b, p, hash) == FileFault(m)
    ensures exists q :: q in DigestCalls(b, p, hash) && hash(q) == ReadFailed(m)
  {
    match b
    case Some(Pending(prev)) =>
      if hash(prev).Digested? {
        assert p in DigestCalls(b, p, hash);
      } else {
        assert prev in DigestCalls(b, p, hash);
      }
    case Some(Hashed(_)) =>
      assert p in DigestCalls(b, p, hash);
  }

  // ---------------------------------------------------------------------
  // A whole walk
  // ---------------------------------------------------------------------

  /**
   * When the walk runs to its end, the total is the sum of the sizes of
   * the counted files, whether or not digesting them later failed.
   */
  lemma {:induction false} RunTotal(s: ScanState, es: seq<WalkEntry>, minSize: int, hash: Path -> HashOutcome)
    requires Run(s, es, minSize, hash).Running?
    ensures Run(s, es, minSize, hash).state.total == s.total + SumSizes(Counted(es, minSize))
    decreases |es|
  {
    if es != [] {
      var front := es[..|es| - 1];
      RunTotal(s, front, minSize, hash);
      var c := Counted(front, minSize);
      var e := es[|es| - 1];
      if IsCounted(e, minSize) {
        var x := FileSize(e.path, e.size);
        assert (c + [x])[..|c|] == c;
      } else {
        assert Counted(es, minSize) == c;
      }
    }
  }

  /**
   * When the walk runs to its end, the ignored list gained exactly the files
   * below the minimum size, each once, in walk order.
   */
  lemma {:induction false} RunIgnored(s: ScanState, es: seq<WalkEntry>, minSize: int, hash: Path -> HashOutcome)
    requires Run(s, es, minSize, hash).Running?
    ensures Run(s, es, minSize, hash).state.ignored == s.ignored + IgnoredPaths(es, minSize)
    decreases |es|
  {
    if es != [] {
      RunIgnored(s, es[..|es| - 1], minSize, hash);
    }
  }

  /**
   * A stretch of the walk made only of files below the minimum size changes
   * nothing but the ignored list, which gains them in walk order; nothing is
   * digested and the walk cannot stop there.
   */
  lemma {:induction false} SmallFilesOnlyIgnored(s: ScanState, es: seq<WalkEntry>, minSize: int, hash: Path -> HashOutcome)
    requires forall i :: 0 <= i < |es| ==> es[i].Sized? && es[i].size < minSize
    ensures Run(s, es, minSize, hash) == Running(s.(ignored := s.ignored + PathsOf(es)))
    decreases |es|
  {
    if es != [] {
      var front := es[..|es| - 1];
      SmallFilesOnlyIgnored(s, front, minSize, hash);
      assert PathsOf(es) == PathsOf(front) + [es[|es| - 1].path];
      assert s.ignored + PathsOf(front) + [es[|es| - 1].path] == s.ignored + PathsOf(es);
    }
  }

  /**
   * The per-file entries of the ledger after a walk that ran to its end
   * and listed each path once. Every entry is under a walked path. A file
   * whose size lookup failed has that lookup's message. A file below the
   * minimum size has no entry. A counted file's entry, when it has one,
   * is the read error of a file the scan tried to digest.
   */
  ghost predicate FileErrors(t: ScanState, es: seq<WalkEntry>, minSize: int, hash: Path -> HashOutcome)
  {
    && (forall k :: k in t.errors ==> k.AtFile? && k.path in PathsOf(es))
    && (forall i :: 0 <= i < |es| && es[i].StatFailed? ==>
          AtFile(es[i].path) in t.errors && t.errors[AtFile(es[i].path)] == es[i].message)
    && (forall i :: 0 <= i < |es| && es[i].Sized? && es[i].size < minSize ==> AtFile(es[i].path) !in t.errors)
    && (forall i :: 0 <= i < |es| && IsCounted(es[i], minSize) && AtFile(es[i].path) in t.errors ==>
          exists q :: q in t.hashed && hash(q) == ReadFailed(t.errors[AtFile(es[i].path)]))
  }

  /** A new entry under a counted file is the read error of a path its store digested. */
  lemma NewEntryDigested(s: ScanState, e: WalkEntry, minSize: int, hash: Path -> HashOutcome)
    requires IsCounted(e, minSize) && AtFile(e.path) !in s.errors
    requires Step(s, e, minSize, hash).Running? && AtFile(e.path) in Step(s, e, minSize, hash).state.errors
    ensures var t := Step(s, e, minSize, hash).state;
      exists q :: q in t.hashed && hash(q) == ReadFailed(t.errors[AtFile(e.path)])
  {
    var t := Step(s, e, minSize, hash).state;
    var s' := s.(total := s.total + e.size);
    var f := Store(s', e.path, e.size, hash).1;
    assert f.FileFault? && t.errors[AtFile(e.path)] == f.message;
    assert BucketOf(s', e.size) == BucketOf(s, e.size);
    FileFaultDigested(BucketOf(s', e.size), e.path, hash, f.message);
    assert t.hashed == s.hashed + DigestCalls(BucketOf(s', e.size), e.path, hash);
  }

  /** One more walked file, with a path not seen before, keeps the per-file entries right. */
  lemma StepKeepsFileErrors(s: ScanState, e: WalkEntry, front: seq<WalkEntry>, minSize: int, hash: Path -> HashOutcome)
    requires FileErrors(s, front, minSize, hash)
    requires e.path !in PathsOf(front)
    requires Step(s, e, minSize, hash).Running?
    ensures FileErrors(Step(s, e, minSize, hash).state, front + [e], minSize, hash)
  {
    var t := Step(s, e, minSize, hash).state;
    var es := front + [e];
    var n := |front|;
    FaultsInStep(s, e, minSize, hash);
    StepParts(s, e, minSize, hash);
    assert PathsOf(es) == PathsOf(front) + [e.path];
    assert AtFile(e.path) !in s.errors;
    assert forall q :: q in s.hashed ==> q in t.hashed;
    forall i | 0 <= i < n
      ensures es[i] == front[i] && es[i].path != e.path
    {
      assert PathsOf(front)[i] == front[i].path;
    }
    if IsCounted(e, minSize) && AtFile(e.path) in t.errors {
      NewEntryDigested(s, e, minSize, hash);
    }
    assert es[n] == e;
  }

  lemma {:induction false} RunFileErrors(es: seq<WalkEntry>, minSize: int, hash: Path -> HashOutcome)
    requires Distinct(PathsOf(es))
    requires Run(Initial(), es, minSize, hash).Running?
    ensures FileErrors(Run(Initial(), es, minSize, hash).state, es, minSize, hash)
    decreases |es|
  {
    if es != [] {
      var front := es[..|es| - 1];
      var e := es[|es| - 1];
      assert PathsOf(es) == PathsOf(front) + [e.path];
      assert Distinct(PathsOf(front));
      RunFileErrors(front, minSize, hash);
      var s := Run(Initial(), front, minSize, hash).state;
      var t := Run(Initial(), es, minSize, hash).state;
      assert t == Step(s, e, minSize, hash).state;
      FaultsInStep(s, e, minSize, hash);
      StepParts(s, e, minSize, hash);
      StepKeepsFileErrors(s, e, front, minSize, hash);
      assert es == front + [e];
    }
  }
}

=== FILE: shared_size.dfy ===
/**
 * A file is digested only when another counted file of the walk has the
 * same size; a digested size always holds at least two counted files.
 */
module SharedSize {
  import opened Wrappers
  import opened Files
  import opened Digesting
  import opened Buckets
  import opened WalkFacts

  /** Two different counted files have size `k`. */
  ghost predicate SizeTwice(c: seq<FileSize>, k: nat)
  {
    exists i, j :: 0 <= i < |c| && 0 <= j < |c| && i != j && c[i].size == k && c[j].size == k
  }

  /** Every size with a bucket is the size of a counted file. */
  ghost predicate SizesCounted(results: map<nat, Bucket>, c: seq<FileSize>)
  {
    forall k :: k in results ==> exists i :: 0 <= i < |c| && c[i].size == k
  }

  /** A pending bucket's path is a counted file of that size. */
  ghost predicate PendingCounted(results: map<nat, Bucket>, c: seq<FileSize>)
  {
    forall k :: k in results && results[k].Pending? ==> FileSize(results[k].path, k) in c
  }

  /** A digested size holds two counted files. */
  ghost predicate HashedShared(results: map<nat, Bucket>, c: seq<FileSize>)
  {
    forall k :: k in results && results[k].Hashed? ==> SizeTwice(c, k)
  }

  /** Every digested path shares its size with another counted file. */
  ghost predicate CallsShared(hashed: seq<Path>, c: seq<FileSize>)
  {
    forall h :: h in hashed ==> SharesSize(c, h)
  }

  ghost predicate SizeInv(t: ScanState, c: seq<FileSize>)
  {
    SizesCounted(t.results, c) && PendingCounted(t.results, c) && HashedShared(t.results, c) && CallsShared(t.hashed, c)
  }

  lemma SizeInvExtends(t: ScanState, c: seq<FileSize>, x: FileSize)
    requires SizeInv(t, c)
    ensures SizeInv(t, c + [x])
  {
    var c' := c + [x];
    forall k | k in t.results ensures exists i :: 0 <= i < |c'| && c'[i].size == k {
      var i :| 0 <= i < |c| && c[i].size == k;
      assert c'[i] == c[i];
    }
    forall k | k in t.results && t.results[k].Hashed? ensures SizeTwice(c', k) {
      var i, j :| 0 <= i < |c| && 0 <= j < |c| && i != j && c[i].size == k && c[j].size == k;
      assert c'[i] == c[i] && c'[j] == c[j];
    }
    forall h | h in t.hashed ensures SharesSize(c', h) {
      SharesSizeExtends(c, x, h);
    }
  }

  /** The bucket a counted file leaves keeps the size facts. */
  lemma StoredKeepsSizes(t: ScanState, p: Path, size: nat, hash: Path -> HashOutcome, c: seq<FileSize>)
    requires SizeInv(t, c)
    ensures var c' := c + [FileSize(p, size)];
      var results := t.results[size := Stored(BucketOf(t, size), p, hash)];
      SizesCounted(results, c') && PendingCounted(results, c') && HashedShared(results, c')
  {
    var c' := c + [FileSize(p, size)];
    var b := BucketOf(t, size);
    var nb := Stored(b, p, hash);
    var results := t.results[size := nb];
    SizeInvExtends(t, c, FileSize(p, size));
    var n := |c|;
    assert c'[n] == FileSize(p, size);
    if b.Some? {
      var i :| 0 <= i < |c| && c[i].size == size;
      assert c'[i] == c[i];
      assert SizeTwice(c', size);
    }
  }

  /** The digest calls a counted file makes are all of files that share a size. */
  lemma CallsKeepShared(t: ScanState, p: Path, size: nat, hash: Path -> HashOutcome, c: seq<FileSize>)
    requires SizeInv(t, c)
    ensures CallsShared(t.hashed + DigestCalls(BucketOf(t, size), p, hash), c + [FileSize(p, size)])
  {
    var c' := c + [FileSize(p, size)];
    var b := BucketOf(t, size);
    var calls := DigestCalls(b, p, hash);
    SizeInvExtends(t, c, FileSize(p, size));
    var n := |c|;
    assert c'[n] == FileSize(p, size);
    if b.Some? {
      var i :| 0 <= i < |c| && c[i].size == size;
      assert c'[i] == c[i];
      assert SharesSize(c', p) by {
        assert c'[n].path == p && c'[i].size == c'[n].size && n != i;
      }
      if b.value.Pending? {
        var prev := b.value.path;
        assert FileSize(prev, size) in c;
        var m :| 0 <= m < |c| && c[m] == FileSize(prev, size);
        assert c'[m] == c[m];
        assert SharesSize(c', prev) by {
          assert c'[m].path == prev && c'[n].size == c'[m].size && m != n;
        }
      }
      assert forall x :: x in calls ==> SharesSize(c', x);
    }
    assert forall x :: x in t.hashed + calls ==> x in t.hashed || x in calls;
  }

  lemma StepKeepsSizeInv(t: ScanState, e: WalkEntry, minSize: int, hash: Path -> HashOutcome, c: seq<FileSize>)
    requires SizeInv(t, c)
    ensures SizeInv(Step(t, e, minSize, hash).state, c + if IsCounted(e, minSize) then [FileSize(e.path, e.size)] else [])
  {
    StepParts(t, e, minSize, hash);
    if IsCounted(e, minSize) {
      var t' := t.(total := t.total + e.size);
      StoredKeepsSizes(t', e.path, e.size, hash, c);
      CallsKeepShared(t', e.path, e.size, hash, c);
    } else {
      assert c + [] == c;
    }
  }

  lemma {:induction false} RunKeepsSizeInv(es: seq<WalkEntry>, minSize: int, hash: Path -> HashOutcome)
    ensures SizeInv(Run(Initial(), es, minSize, hash).state, Counted(es, minSize))
    decreases |es|
  {
    if es != [] {
      var front, e := es[..|es| - 1], es[|es| - 1];
      RunKeepsSizeInv(front, minSize, hash);
      var o := Run(Initial(), front, minSize, hash);
      var c := Counted(front, minSize);
      var x := if IsCounted(e, minSize) then [FileSize(e.path, e.size)] else [];
      assert Counted(es, minSize) == c + x;
      if o.Running? {
        assert Run(Initial(), es, minSize, hash) == Step(o.state, e, minSize, hash);
        StepKeepsSizeInv(o.state, e, minSize, hash, c);
      } else {
        assert Run(Initial(), es, minSize, hash) == o;
        if IsCounted(e, minSize) {
          SizeInvExtends(o.state, c, FileSize(e.path, e.size));
        } else {
          assert c + x == c;
        }
      }
    }
  }

  /**
   * Every file digested during a scan shares its size with another counted
   * file of the walk: a file whose size is unique is never read.
   */
  lemma HashedOnlyWhenSizeShared(es: seq<WalkEntry>, minSize: int, hash: Path -> HashOutcome)
    ensures forall h :: h in Run(Initial(), es, minSize, hash).state.hashed ==> SharesSize(Counted(es, minSize), h)
  {
    RunKeepsSizeInv(es, minSize, hash);
  }
}

=== FILE: validation.dfy ===
/**
 * The validator run before a scan: three checks in a fixed order (the root
 * path, then the block size, then the minimum size), stopping at the first
 * one that fails. Converting a parameter with `int(...)` overwrites the
 * stored parameter, so a conversion that succeeded stays in place even when
 * the range test after it fails.
 */
module Validation {
  import opened Wrappers
  import opened Files
  import opened Conversion

  // The messages, verbatim; two of them do not describe their own check.
  const PathMissing := "The path doesn't exist"
  const PathNotAbsolute := "The path is absolute"
  const PathNotDirectory := "The path is not a directory"
  const BlockSizeInvalid := "The block size is not a positive integer"
  const MinSizeNotInteger := "The min size is not a positive integer or zero"
  const MinSizeNegative := "The block size is not a positive integer"

  predicate PositiveInt(v: PyValue)
  {
    IntOf(v).Some? && IntOf(v).value > 0
  }

  predicate NonNegativeInt(v: PyValue)
  {
    IntOf(v).Some? && IntOf(v).value >= 0
  }

  /** What the validator reports, and the parameter values it leaves stored. */
  datatype ParamCheck = ParamCheck(problem: Option<string>, blockSize: PyValue, minSize: PyValue)

  /** The root path checks: exists, then absolute, then a directory. */
  function PathProblem(root: RootFacts): (r: Option<string>)
    ensures r.None? <==> root.pathExists && root.isAbsolute && root.isDir
    ensures !root.pathExists ==> r == Some(PathMissing)
    ensures root.pathExists && !root.isAbsolute ==> r == Some(PathNotAbsolute)
    ensures root.pathExists && root.isAbsolute && !root.isDir ==> r == Some(PathNotDirectory)
  {
    if !root.pathExists then Some(PathMissing)
    else if !root.isAbsolute then Some(PathNotAbsolute)
    else if !root.isDir then Some(PathNotDirectory)
    else None
  }

  /** Converts one size parameter; a failed conversion leaves it as it was. */
  function Converted(v: PyValue): (r: PyValue)
    ensures IntOf(v).Some? ==> r == Int(IntOf(v).value)
    ensures IntOf(v).None? ==> r == v
    ensures IntOf(r) == IntOf(v)
  {
    match IntOf(v)
    case Some(n) => Int(n)
    case None => v
  }

  /** The whole validator: the first failing check decides the one problem. */
  function CheckParams(root: RootFacts, blockSize: PyValue, minSize: PyValue): (r: ParamCheck)
    ensures r.problem.None? <==>
      root.pathExists && root.isAbsolute && root.isDir && PositiveInt(blockSize) && NonNegativeInt(minSize)
    ensures r.problem.None? ==>
      r.blockSize == Int(IntOf(blockSize).value) && r.blockSize.i > 0 &&
      r.minSize == Int(IntOf(minSize).value) && r.minSize.i >= 0
    // a path failure comes first and converts nothing
    ensures PathProblem(root).Some? ==> r == ParamCheck(PathProblem(root), blockSize, minSize)
    // a block size failure comes next and leaves the minimum size unconverted
    ensures PathProblem(root).None? && !PositiveInt(blockSize) ==>
      r == ParamCheck(Some(BlockSizeInvalid), Converted(blockSize), minSize)
    // the minimum size is checked last
    // and both sizes keep whatever conversion succeeded
    ensures PathProblem(root).None? && PositiveInt(blockSize) && !NonNegativeInt(minSize) ==>
      r == ParamCheck(Some(if IntOf(minSize).None? then MinSizeNotInteger else MinSizeNegative),
                      Int(IntOf(blockSize).value), Converted(minSize))
  {
    match PathProblem(root)
    case Some(m) => ParamCheck(Some(m), blockSize, minSize)
    case None =>
      var b := Converted(blockSize);
      if !PositiveInt(blockSize) then ParamCheck(Some(BlockSizeInvalid), b, minSize)
      else
        var n := Converted(minSize);
        if IntOf(minSize).None? then ParamCheck(Some(MinSizeNotInteger), b, n)
        else if IntOf(minSize).value < 0 then ParamCheck(Some(MinSizeNegative), b, n)
        else ParamCheck(None, b, n)
  }

  /**
   * A block size given as a str with an information separator (28-31) in it
   * is refused once the root passes its checks, and stays stored as given.
   */
  lemma SeparatorBlockSizeRefused(root: RootFacts, s: string, k: nat, minSize: PyValue)
    requires PathProblem(root).None?
    requires k < |s| && 28 <= s[k] as int <= 31
    ensures CheckParams(root, Str(s), minSize) == ParamCheck(Some(BlockSizeInvalid), Str(s), minSize)
  {
    SeparatorRejected(s, k);
  }
}

=== FILE: walk_facts.dfy ===
/**
 * Views of a walk that the scan's properties are stated in: the files it
 * counts (size found and not below the minimum), the files it ignores, the
 * sum of the counted sizes, and the subsequence order.
 */
module WalkFacts {
  import opened Files

  /** A walked file that the scan counts: its size was found and is at least the minimum. */
  predicate IsCounted(e: WalkEntry, minSize: int)
  {
    e.Sized? && e.size >= minSize
  }

  /** A counted file: its path and the size its lookup gave. */
  datatype FileSize = FileSize(path: Path, size: nat)

  /** The counted files of a walk, in walk order. */
  function Counted(es: seq<WalkEntry>, minSize: int): (c: seq<FileSize>)
    ensures |c| <= |es|
    ensures forall x :: x in c ==> Sized(x.path, x.size) in es && x.size >= minSize
  {
    if es == [] then []
    else
      var e := es[|es| - 1];
      Counted(es[..|es| - 1], minSize) + (if IsCounted(e, minSize) then [FileSize(e.path, e.size)] else [])
  }

  /** The paths of counted files, in order. */
  function Names(c: seq<FileSize>): (ps: seq<Path>)
    ensures |ps| == |c|
    ensures forall i :: 0 <= i < |c| ==> ps[i] == c[i].path
  {
    if c == [] then [] else Names(c[..|c| - 1]) + [c[|c| - 1].path]
  }

  /** The files a walk ignores for being below the minimum size, in walk order. */
  function IgnoredPaths(es: seq<WalkEntry>, minSize: int): (ps: seq<Path>)
    ensures |ps| <= |es|
  {
    if es == [] then []
    else
      var e := es[|es| - 1];
      IgnoredPaths(es[..|es| - 1], minSize) + (if e.Sized? && e.size < minSize then [e.path] else [])
  }

  /** The sum of the sizes of `c`. */
  function SumSizes(c: seq<FileSize>): nat
  {
    if c == [] then 0 else SumSizes(c[..|c| - 1]) + c[|c| - 1].size
  }

  /** Two different counted files, one of them with path `h`, have the same size. */
  ghost predicate SharesSize(c: seq<FileSize>, h: Path)
  {
    exists i, j :: 0 <= i < |c| && 0 <= j < |c| && i != j && c[i].path == h && c[j].size == c[i].size
  }

  lemma SharesSizeExtends(c: seq<FileSize>, x: FileSize, h: Path)
    requires SharesSize(c, h)
    ensures SharesSize(c + [x], h)
  {
    var i, j :| 0 <= i < |c| && 0 <= j < |c| && i != j && c[i].path == h && c[j].size == c[i].size;
    assert (c + [x])[i] == c[i] && (c + [x])[j] == c[j];
  }

  /** `a` is `b` with some elements left out, the rest kept in order. */
  predicate Subseq(a: seq<Path>, b: seq<Path>)
    decreases |b|
  {
    if a == [] then true
    else if b == [] then false
    else if a[|a| - 1] == b[|b| - 1] then Subseq(a[..|a| - 1], b[..|b| - 1])
    else Subseq(a, b[..|b| - 1])
  }

  lemma {:induction false} SubseqExtend(a: seq<Path>, b: seq<Path>, x: Path)
    requires Subseq(a, b)
    ensures Subseq(a, b + [x])
    decreases |b|, 1
  {
    if a != [] {
      assert (b + [x])[..|b|] == b;
      if a[|a| - 1] == x {
        SubseqDropLast(a, b);
      }
    }
  }

  lemma {:induction false} SubseqDropLast(a: seq<Path>, b: seq<Path>)
    requires a != [] && Subseq(a, b)
    ensures Subseq(a[..|a| - 1], b)
    decreases |b|, 0
  {
    var a', b' := a[..|a| - 1], b[..|b| - 1];
    assert b == b' + [b[|b| - 1]];
    if a[|a| - 1] == b[|b| - 1] {
      SubseqExtend(a', b', b[|b| - 1]);
    } else {
      SubseqDropLast(a, b');
      SubseqExtend(a', b', b[|b| - 1]);
    }
  }

  lemma SubseqAppend(a: seq<Path>, b: seq<Path>, x: Path)
    requires Subseq(a, b)
    ensures Subseq(a + [x], b + [x])
  {
    assert (a + [x])[..|a|] == a;
    assert (b + [x])[..|b|] == b;
  }

  lemma {:induction false} SubseqSingleton(x: Path, b: seq<Path>)
    requires x in b
    ensures Subseq([x], b)
    decreases |b|
  {
    if b[|b| - 1] != x {
      assert b == b[..|b| - 1] + [b[|b| - 1]];
      SubseqSingleton(x, b[..|b| - 1]);
    }
  }

  /** The counted files keep their walk order: they are a subsequence of the walk. */
  lemma {:induction false} CountedPaths(es: seq<WalkEntry>, minSize: int)
    ensures Subseq(Names(Counted(es, minSize)), PathsOf(es))
    decreases |es|
  {
    if es != [] {
      var front := es[..|es| - 1];
      var e := es[|es| - 1];
      CountedPaths(front, minSize);
      var cf := Counted(front, minSize);
      assert PathsOf(es)[..|es| - 1] == PathsOf(front);
      assert PathsOf(es) == PathsOf(front) + [e.path];
      if IsCounted(e, minSize) {
        var x := FileSize(e.path, e.size);
        assert (cf + [x])[..|cf|] == cf;
        assert Names(cf + [x]) == Names(cf) + [e.path];
        SubseqAppend(Names(cf), PathsOf(front), e.path);
      } else {
        assert Counted(es, minSize) == cf;
        SubseqExtend(Names(cf), PathsOf(front), e.path);
      }
    }
  }

  lemma {:induction false} SubseqMembers(a: seq<Path>, b: seq<Path>, x: Path)
    requires Subseq(a, b) && x in a
    ensures x in b
    decreases |b|
  {
    assert b != [];
    var a', b' := a[..|a| - 1], b[..|b| - 1];
    assert b == b' + [b[|b| - 1]];
    if a[|a| - 1] == b[|b| - 1] {
      if x != a[|a| - 1] {
        assert a == a' + [a[|a| - 1]];
        SubseqMembers(a', b', x);
      }
    } else {
      SubseqMembers(a, b', x);
    }
  }

  /** A subsequence of a sequence without repeats has no repeats. */
  lemma {:induction false} SubseqDistinct(a: seq<Path>, b: seq<Path>)
    requires Subseq(a, b) && Distinct(b)
    ensures Distinct(a)
    decreases |b|
  {
    if a != [] {
      var a', b' := a[..|a| - 1], b[..|b| - 1];
      assert b == b' + [b[|b| - 1]];
      assert Distinct(b');
      if a[|a| - 1] == b[|b| - 1] {
        SubseqDistinct(a', b');
        assert a == a' + [a[|a| - 1]];
        forall i | 0 <= i < |a'| ensures a'[i] != a[|a| - 1] {
          SubseqMembers(a', b', a'[i]);
        }
      } else {
        SubseqDistinct(a, b');
      }
    }
  }

  /** When the walk repeats no path, neither do its counted files. */
  lemma CountedDistinct(es: seq<WalkEntry>, minSize: int)
    requires Distinct(PathsOf(es))
    ensures Distinct(Names(Counted(es, minSize)))
  {
    CountedPaths(es, minSize);
    SubseqDistinct(Names(Counted(es, minSize)), PathsOf(es));
  }
}

=== FILE: wrappers.dfy ===
/** Optional values, used wherever the source either produces a value or raises. */
module Wrappers {
  datatype Option<+T> = None | Some(value: T)
}
